=== FILE: README.md ===
# distributed-worker: a Dafny model of the manager/worker protocol

This project models the coordination core of `distributed-worker`, a small
Python library in which a manager process accepts worker connections,
tracks their liveness from the time of their last message, pings them every
half time-to-live, drains and dispatches their messages once per tick, and
broadcasts `:stop` on shutdown. A worker registers on connect and handles at
most one inbound message per tick. The model covers:

- `distributed_worker/manager.py`: the port scan of the constructor, the
  three liveness classifiers, `_on_error`, `send`, `broadcast`, `spread`,
  `collect`, `flush`, `poll`, the registry append of `try_accept` and
  `create_local_worker`, the step order of `run_once`, and the `:stop`
  broadcast of `stop`.
- `distributed_worker/worker.py`: construction, `run_once`, `send` and the
  `run_worker` loop.
- `single.py`: `is_prime` and the loop that drains the task list.

The model is a functional state machine. A channel is the queue the
manager has not read yet, the queue the manager has written, and a broken
flag. The manager is an immutable record: the channels, the marker map, the
time of the last ping, the ttl, the listener port, and a log of the user
hooks called so far. Every transition takes the clock reading `now` as a
parameter. User hooks (`loop`, `on_new_worker`, `on_worker_disconnect`,
`handle_msg`) have no behaviour of their own: each call is appended to the
log as an event. Time is a real number of seconds.

Modules, one per component:

| file | module | models |
|---|---|---|
| messages.dfy | Messages | opcodes, channels, filtering acknowledgements |
| liveness.dfy | Liveness | the marker map and the three classifiers |
| manager_state.dfy | ManagerState | the manager record, `_on_error`, registry append, port scan |
| router.dfy | Router | `send`, `broadcast`, `collect`, `flush` |
| spread.dfy | Spreading | `spread`, as written and corrected |
| manager_loop.dfy | ManagerLoop | `poll`, accepting, dispatch, `run_once`, `stop` |
| worker.dfy | WorkerRuntime | the worker's construction, `run_once`, `send`, `run_worker` |
| system.dfy | System | both ends of one pipe together |
| single.dfy | Single | `is_prime` and the drain loop |

Details of the code that the model keeps, though a reader of the method
names might expect otherwise:

- The classifiers are three independent filters with different defaults.
  A worker whose marker plus ttl equals `now` is neither active nor dead.
  A reset worker (marker -1) is unconfirmed and, once `now > ttl`, also dead.
- Repeated failures are not always silent. `_on_error` fires the disconnect
  hook again whenever `-1 + ttl > now`, that is, while `now < ttl - 1`
  (`ManagerState.OnErrorIdempotent` states the exact condition).
- A broken channel first yields what it still buffers. `collect` stamps the
  marker with `now` after each successful `recv`, so a failing channel that
  delivered anything counts as active when `_on_error` checks it, and the
  hook fires exactly when `ttl > 0`. `flush` stamps the marker before each
  `recv`, including the one that fails. `flush` reads only the channels of
  the workers active at its start, so there the broken channel of such a
  worker fires the hook exactly when `ttl > 0`, whatever that worker's
  marker was; a broken channel of any other worker is not read at all
  (`Router.ReadLoopsOnBrokenChannel`, `Router.FlushHooks`).
- `spread` does not validate every target before sending (see Findings).

## Model

| member | source | states |
|---|---|---|
| Messages.Keep | distributed_worker/manager.py:103-109 | the filtered batch holds exactly the messages outside the dropped set, each as many times as the batch does, and is no longer than the batch |
| Messages.KeepAppend | distributed_worker/manager.py:103-109 | filtering two batches read one after the other yields the concatenation of their filtered batches, so arrival order survives |
| Messages.Payloads | distributed_worker/manager.py:107-109 | a drained batch passes to the handler exactly the messages other than `:pong` and `:register` |
| Liveness.IsActive | distributed_worker/manager.py:61-62 | `_is_active`: the marker (default 0) plus ttl is strictly after `now`; the lists below and every disconnect condition are stated through it |
| Liveness.ActiveWorkers | distributed_worker/manager.py:67-74 | lists, in increasing order, exactly the registered indices whose marker (default 0) plus ttl is strictly after `now` |
| Liveness.UnconfirmedWorkers | distributed_worker/manager.py:76-82 | lists, in increasing order, exactly the registered indices whose marker is absent or -1 |
| Liveness.DeadWorkers | distributed_worker/manager.py:84-90 | lists, in increasing order, exactly the registered indices whose marker (default 0) plus ttl is strictly before `now` |
| Liveness.ActiveDeadDisjoint | distributed_worker/manager.py:67-90 | no index is both active and dead, and one whose marker plus ttl equals `now` is neither |
| Liveness.ActiveOrDead | distributed_worker/manager.py:67-90 | every registered index off that exact boundary is active or dead |
| Liveness.UnconfirmedIsDead | distributed_worker/manager.py:76-90 | once `now > ttl`, every unconfirmed index is also dead |
| ManagerState.OnError | distributed_worker/manager.py:129-134 | the disconnect hook is logged exactly when the worker was active just before; the marker becomes -1 whatever it was; no other marker, channel or setting changes |
| ManagerState.OnErrorIdempotent | distributed_worker/manager.py:129-134 | a second failure at the same time changes nothing exactly when `now >= ttl - 1`; below that it fires the hook again |
| ManagerState.Admit | distributed_worker/manager.py:44-47 | an accepted connection is appended at the next index, existing indices keep their channels, and `on_new_worker` receives `len(pipes) - 1`, the call made at distributed_worker/manager.py:189-190 |
| ManagerState.CreateLocalWorker | distributed_worker/manager.py:152-165 | the manager's end of the new pipe is appended after the existing ones and `on_new_worker` receives its index |
| ManagerState.ScanPort | distributed_worker/manager.py:21-30 | the port ends in [6000, 6100]; a listener exists exactly when the port is below 6100, and then it is the first free port from 6000 on |
| ManagerState.ScanFindsAnyFreePort | distributed_worker/manager.py:21-30 | the scan binds a listener exactly when some port in [6000, 6100) is free |
| ManagerState.NewManager | distributed_worker/manager.py:15-35 | a new manager has no channels, no markers, no hook calls and its ping clock at `now`; its listener and port are those of the scan, with port 6100 and no listener when nothing binds |
| Router.Send | distributed_worker/manager.py:136-142 | succeeds exactly on a healthy channel, appending the message to it alone; on a broken one nothing is written and the result is the disconnect transition |
| Router.Broadcast | distributed_worker/manager.py:144-148 | returns one flag per registered index and leaves the registry as it was |
| Router.BroadcastDelivers | distributed_worker/manager.py:144-148 | the k-th flag is the success of the send to k; a failure does not stop later sends, and every healthy channel receives the message once |
| Router.BroadcastMarkers | distributed_worker/manager.py:144-148 | after a broadcast the broken channels' markers are -1 and every other marker is unchanged |
| Router.BroadcastHooks | distributed_worker/manager.py:144-148 | a broadcast logs only disconnects, in increasing index order, for exactly the broken channels whose worker was active |
| Router.DrainPipe | distributed_worker/manager.py:52-59 | reading one channel empties it; the marker is stamped with `now` if anything was read, and in `flush`, which stamps before each `recv`, also when the channel is broken; a broken one then runs the disconnect transition, firing exactly when the worker counts as active after those stamps (the `collect` loop is lines 101-112) |
| Router.Collect | distributed_worker/manager.py:99-114 | `collect` keeps the registry and configuration and returns entries only for registered indices; its contents, markers and hooks are stated by the Collect rows below |
| Router.CollectFromResult | distributed_worker/manager.py:99-114 | the result has an entry for exactly the channels that delivered anything, holding their non-acknowledgement messages in arrival order |
| Router.CollectResult | distributed_worker/manager.py:99-114 | an entry for exactly the channels that delivered anything, including those that delivered only acknowledgements, holding the payloads in arrival order |
| Router.CollectDrains | distributed_worker/manager.py:99-114 | after `collect` every channel is empty; a failed channel's marker is -1, one that delivered anything has marker `now`, and the others are unchanged |
| Router.CollectHooks | distributed_worker/manager.py:99-114 | `collect` logs only disconnects, in increasing index order, for exactly the channels whose read failed while the worker counted as active |
| Router.CollectFromDrains | distributed_worker/manager.py:101-112 | the state left by `collect` is that of draining every channel one after the other in index order |
| Router.Flush | distributed_worker/manager.py:52-59 | flushing leaves the registry as it was |
| Router.FlushDrainsActive | distributed_worker/manager.py:52-59 | exactly the channels of the workers active at `now` are emptied; an active worker's marker ends at -1 if its channel is broken, at `now` if anything was read, and unchanged otherwise; no other channel or marker changes |
| Router.FlushHooks | distributed_worker/manager.py:52-59 | `flush` logs disconnects, in increasing order, for exactly the workers active at its start whose channel is broken, and only when ttl > 0: the failing `recv` is preceded by a stamp with `now` |
| Router.ReadLoopsOnBrokenChannel | distributed_worker/manager.py:52-59 | one read of a broken channel: in `flush`, which reads only the channels of workers active at its start, the disconnect fires exactly when ttl > 0; in `collect` it does too if the channel delivered anything first, and otherwise fires exactly when the worker was already active (`collect` is lines 99-114) |
| Spreading.MaxKey | distributed_worker/manager.py:120 | the largest index of a non-empty mapping: it occurs as a key and bounds every key |
| Spreading.SendListEffect | distributed_worker/manager.py:123-125 | sending a list to a healthy channel appends the whole list and every send succeeds; to a broken one nothing is written, every send fails and the marker ends -1 |
| Spreading.SendListHooks | distributed_worker/manager.py:123-125 | sending a list logs nothing on a healthy channel or for an empty list; on a broken one it logs only disconnects of that worker, exactly one for the first send if the worker was active plus one for each later send while `now < ttl - 1` |
| Spreading.Spread | distributed_worker/manager.py:117-127 | an empty mapping or one with an index outside the registry is rejected before any send; an accepted call leaves the registry as it was and never faults |
| Spreading.SpreadDelivers | distributed_worker/manager.py:117-127 | each healthy target receives all its messages in order; the result has an entry for exactly the targets with messages, true exactly on healthy channels; broken targets end with marker -1, and only they can fire the hook |
| Spreading.SpreadItemsAsWritten | distributed_worker/manager.py:123-125 | the send loop as written never rejects and leaves the registry as it was, even when it faults on an index outside it |
| Spreading.SpreadAsWritten | distributed_worker/manager.py:117-127 | the check as written rejects exactly an empty mapping or one with an index strictly above the registry size |
| Spreading.SpreadOffByOne | distributed_worker/manager.py:120-125 | the index `len(pipes)` passes the check as written and faults in `send`; the corrected check rejects it |
| Spreading.SpreadAsWrittenPartialSend | distributed_worker/manager.py:120-125 | as written, the fault comes after earlier targets were already written to |
| Spreading.SpreadAsWrittenAgrees | distributed_worker/manager.py:120-125 | when no index equals `len(pipes)`, the check as written and the corrected one behave identically |
| ManagerLoop.PingDue | distributed_worker/manager.py:94 | a heartbeat is due when more than half a ttl has passed since the last one; its consequences are stated by the two rows below |
| ManagerLoop.Poll | distributed_worker/manager.py:92-96 | when more than half a ttl has passed since the last ping, every healthy channel receives exactly one `:ping` and the ping clock moves to `now`; otherwise nothing changes |
| ManagerLoop.PollRateLimit | distributed_worker/manager.py:92-96 | after a ping at `t0`, polling at `t1` sends nothing exactly when `t1 <= t0 + ttl/2`, for a non-negative ttl |
| ManagerLoop.AcceptAll | distributed_worker/manager.py:189-190 | the accepted connections are appended in accept order and `on_new_worker` fires for each new index in turn; markers and settings are unchanged |
| ManagerLoop.HandlesOne | distributed_worker/manager.py:195-196 | the calls for one worker's messages hand exactly those messages, in order, to that worker and nothing to any other |
| ManagerLoop.DispatchFifo | distributed_worker/manager.py:194-196 | dispatch hands each worker exactly its collected messages, in arrival order |
| ManagerLoop.DispatchOrder | distributed_worker/manager.py:194-196 | dispatch calls only `handle_msg`, worker by worker in increasing index order |
| ManagerLoop.Opening | distributed_worker/manager.py:185-190 | a tick first pings, then logs `loop`, then appends the accepted connections with their `on_new_worker` calls |
| ManagerLoop.RunOnceHandles | distributed_worker/manager.py:193-196 | in one tick each worker's handler calls are exactly the messages it had sent, acknowledgements left out, in order; new workers included |
| ManagerLoop.RunOnce | distributed_worker/manager.py:183-196 | one tick without its pacing sleep: `poll`, `loop`, the accept loop, `collect`, then `handle_msg` per message; its properties are stated by RunOnceOrder, RunOnceRegistry and RunOnceHandles |
| ManagerLoop.RunOnceOrder | distributed_worker/manager.py:183-196 | one tick's hook calls are, in this order: disconnects from the ping, `loop`, one `on_new_worker` per accepted connection, disconnects from reading, then `handle_msg` worker by worker, FIFO per worker |
| ManagerLoop.RunOnceRegistry | distributed_worker/manager.py:183-196 | a tick only appends to the registry: existing indices keep their connection, accepted ones follow in accept order untouched except drained, and every channel ends drained |
| ManagerLoop.NewWorkers | distributed_worker/manager.py:189-190 | the `on_new_worker` calls for k connections registered after n are for indices n to n+k-1, in order |
| ManagerLoop.Stop | distributed_worker/manager.py:171-172 | `stop` leaves the registry as it was |
| ManagerLoop.StopReachesHealthyWorkers | distributed_worker/manager.py:171-172 | after `stop` every healthy channel ends with `:stop` as its last written message |
| WorkerRuntime.Connect | distributed_worker/worker.py:23-26 | a new worker has sent exactly one `:register`, which never reaches the manager's handler, and is not done |
| WorkerRuntime.RunOnce | distributed_worker/worker.py:28-39 | `loop` always runs first; then at most one message is consumed. `:stop` only sets done, `:ping` only appends one `:pong`, anything else only goes to `handle_msg`; with nothing to read only `loop` runs |
| WorkerRuntime.Send | distributed_worker/worker.py:41-42 | `send` appends the message and changes nothing else |
| WorkerRuntime.DoneIsStable | distributed_worker/worker.py:28-35 | done is monotone: once set, no number of further ticks clears it |
| WorkerRuntime.TickReadsOne | distributed_worker/worker.py:28-39 | a tick that reads a message other than `:stop` runs `loop` once, hands the message to `handle_msg` unless it is `:ping`, and answers `:pong` exactly for `:ping` |
| WorkerRuntime.RunWorker | distributed_worker/worker.py:4-6 | the worker stops exactly after the tick that reads the first `:stop`. It has read nothing after it, answered each earlier `:ping` with one `:pong`, handed every other earlier message to `handle_msg` in order, and run `loop` once per message read |
| System.PongsAreSilent | distributed_worker/manager.py:107-108 | heartbeat replies never reach the manager's handler: `:pong`s appended to what a worker wrote leave the manager's payloads unchanged |
| System.WorkerSendReachesHandler | distributed_worker/worker.py:41-42 | a message a worker sends reaches the manager's handler after everything it sent before, exactly when it is not an acknowledgement |
| System.RunConnected | distributed_worker/worker.py:8-10 | over a worker's life up to `:stop`, it writes `:register` and then one `:pong` per `:ping`, and none of that reaches the manager's handler |
| System.ShutDown | distributed_worker/manager.py:171-172 | after `stop`, a worker behind a healthy pipe terminates; if no earlier `:stop` was pending, it first reads every message the manager wrote and handles every message other than `:ping` in order |
| Single.NoDivisorFrom | single.py:2-5 | the trial division from `num` is false exactly when some candidate in [num, x) divides x |
| Single.IsPrime | single.py:1-5 | `is_prime(x)` is false exactly when some `num` in [2, x) divides x |
| Single.IsPrimeIsPrimality | single.py:1-5 | from 2 on, `is_prime` is true exactly when x is not a product of two factors of at least 2 |
| Single.SmallInputsReportedPrime | single.py:2-5 | 0, 1 and every negative number are reported prime although none of them is a product of two such factors |
| Single.EvenIsNotPrime | single.py:2-4 | every even number above 2 is rejected |
| Single.DrainPending | single.py:7-12 | popping from the end processes the tasks from n-1 down to 0, leaves `pending` empty and maps exactly the tasks 0..n-1 to their `is_prime` |
| Single.Baseline | single.py:8-12 | the shipped run maps exactly the tasks 0..149999 to their `is_prime` |

## Left out

- Sockets, `select`, `Listener`, `Pipe` and `Client`. A channel is two queues and a broken flag. The connections `try_accept` finds during a tick are a parameter of `RunOnce`, in accept order. The four exceptions `try_accept` swallows (`ConnectionResetError`, `EOFError`, `OSError`, `BrokenPipeError`) are left out: a failed handshake adds no worker, which is the same as the connection not being in the list.
- Process spawning, `join`, `close`, `kill` and `print` in `create_local_worker` and `stop`, and `listener.close()`. They are operating-system effects; only the `:stop` broadcast is modelled.
- `time.sleep` pacing in the manager's `run_once` (distributed_worker/manager.py:199). Each operation reads the clock once, as its `now` parameter, where the source calls `time.time()` several times.
- Floating-point arithmetic. Times and the ttl are reals.
- `authkey`, `address` and `get_client_args`: pass-through data with no behaviour.
- Router.Send: requires an index inside the registry. The source's negative-index wrap and its uncaught `IndexError` for other indices are not modelled for `send`; `spread` models the fault for the key `len(pipes)`.
- Negative keys in `spread`: an assignment's keys are natural numbers, so a negative key, which passes `max(obj.keys()) > len(self.pipes)` (distributed_worker/manager.py:120) and then writes to `pipes[len(pipes) + k]` or raises `IndexError` below `-len(pipes)`, cannot be expressed.
- ManagerLoop.RunOnce: requires a listener. With none bound, `try_accept` raises an uncaught `AttributeError`, which is not modelled.
- WorkerRuntime.RunWorker: requires the worker to be done or a `:stop` to be waiting. Otherwise the source loops forever.
- Manager-side failures the source does not catch. The broken flag stands only for the caught ones: `BrokenPipeError` from the write in `send` (distributed_worker/manager.py:140) and `EOFError` or `ConnectionResetError` from a read in `flush` or `collect` (lines 58 and 110). A `ConnectionResetError` on a write, an `OSError` on a read and an `AuthenticationError` from `accept` (line 46) propagate out of the manager and end it; the model has no such outcome.
- Worker-side pipe failures. A worker's `recv` or `send` on a broken pipe raises and ends its process; the worker model assumes a healthy pipe.
- Spreading.SpreadDelivers: the hook calls of an accepted `spread` are stated weakly, as disconnects of broken targets only. Their exact number per item is stated by Spreading.SendListHooks and is not summed over the whole mapping.
- ManagerLoop.RunOnceOrder: the disconnect segments are characterised only as ascending disconnects. Which workers they name is stated by Router.BroadcastHooks and Router.CollectHooks.
- Python dicts as ordered maps: a mapping passed to `spread` is its item list in insertion order, and `collect`'s result is a map whose dispatch order is index order. The source builds it in index order.
- example.py (a demo using other opcodes and an undefined global) and setup.py (packaging).
- The user hooks' bodies: they are recorded as log events and change nothing.

## Findings

| source | as written | input that shows it | evidently intended | confidence | as-written member | corrected member |
|---|---|---|---|---|---|---|
| distributed_worker/manager.py:120 | `max(obj.keys()) > len(self.pipes)` lets the index `len(pipes)` through; `send` then raises an uncaught `IndexError` from `self.pipes[worker]`, after the sends for earlier keys went out | any registry, `spread({len(pipes): ["x"]})`; with a healthy pipe 0, `spread({0: ["x"], len(pipes): ["x"]})` writes to pipe 0 before faulting | reject every index `>= len(pipes)` before any send (the error names it an invalid worker index) | not executed; high | Spreading.SpreadAsWritten, Spreading.SpreadOffByOne, Spreading.SpreadAsWrittenPartialSend | Spreading.Spread, Spreading.SpreadDelivers |

=== FILE: liveness.dfy ===
/** Liveness of workers, derived from the per-worker last-message marker.

    The marker map holds, for a worker index, either the time of the last
    message received from it or the reset sentinel -1. The three classifiers
    read it with different defaults for an absent entry: 0 for "active" and
    "dead", -1 for "unconfirmed". Time is a real number of seconds.
 */
module Liveness {

  /** The marker written after a read or write failure. */
  const RESET: real := -1.0

  /** The marker of worker `i`, or `default` when none was ever written. */
  function MarkerOr(markers: map<nat, real>, i: nat, default: real): real
  {
    if i in markers then markers[i] else default
  }

  /** A message was received from `i` strictly less than `ttl` seconds ago. */
  predicate IsActive(markers: map<nat, real>, ttl: real, now: real, i: nat)
  {
    MarkerOr(markers, i, 0.0) + ttl > now
  }

  /** Nothing was ever received from `i`, or it was reset after a failure. */
  predicate IsUnconfirmed(markers: map<nat, real>, i: nat)
  {
    MarkerOr(markers, i, RESET) == RESET
  }

  /** The last message from `i` (or time 0) is strictly more than `ttl` old. */
  predicate IsDead(markers: map<nat, real>, ttl: real, now: real, i: nat)
  {
    MarkerOr(markers, i, 0.0) + ttl < now
  }

  /** `a` and `b` hold the same entry (or none) for worker `i`. */
  predicate SameMarker(a: map<nat, real>, b: map<nat, real>, i: nat)
  {
    (i in a <==> i in b) && (i in a ==> a[i] == b[i])
  }

  /** The indices of `s` strictly increase. */
  predicate Ascending(s: seq<nat>)
  {
    forall a, b :: 0 <= a < b < |s| ==> s[a] < s[b]
  }

  /** The indices `lo` to `hi - 1` in increasing order. */
  function Range(lo: nat, hi: nat): (r: seq<nat>)
    ensures forall j: nat :: j in r <==> lo <= j < hi
    ensures Ascending(r)
    ensures forall k :: 0 <= k < |r| ==> lo <= r[k] < hi
    decreases hi - lo
  {
    if lo >= hi then [] else [lo] + Range(lo + 1, hi)
  }

  /** `get_active_workers`: the active indices among the first `n`, in
      index order. */
  function ActiveWorkers(n: nat, markers: map<nat, real>, ttl: real, now: real): (r: seq<nat>)
    ensures forall i: nat :: i in r <==> i < n && IsActive(markers, ttl, now, i)
    ensures Ascending(r)
    ensures forall k :: 0 <= k < |r| ==> r[k] < n
  {
    if n == 0 then []
    else ActiveWorkers(n - 1, markers, ttl, now) + (if IsActive(markers, ttl, now, n - 1) then [n - 1] else [])
  }

  /** `get_unconfirmed_workers`: the unconfirmed indices among the first `n`,
      in index order. */
  function UnconfirmedWorkers(n: nat, markers: map<nat, real>): (r: seq<nat>)
    ensures forall i: nat :: i in r <==> i < n && IsUnconfirmed(markers, i)
    ensures Ascending(r)
    ensures forall k :: 0 <= k < |r| ==> r[k] < n
  {
    if n == 0 then []
    else UnconfirmedWorkers(n - 1, markers) + (if IsUnconfirmed(markers, n - 1) then [n - 1] else [])
  }

  /** `get_dead_workers`: the dead indices among the first `n`, in index
      order. */
  function DeadWorkers(n: nat, markers: map<nat, real>, ttl: real, now: real): (r: seq<nat>)
    ensures forall i: nat :: i in r <==> i < n && IsDead(markers, ttl, now, i)
    ensures Ascending(r)
    ensures forall k :: 0 <= k < |r| ==> r[k] < n
  {
    if n == 0 then []
    else DeadWorkers(n - 1, markers, ttl, now) + (if IsDead(markers, ttl, now, n - 1) then [n - 1] else [])
  }

  /** No worker is listed both active and dead; a worker whose marker plus
      `ttl` equals `now` exactly is listed as neither. */
  lemma ActiveDeadDisjoint(n: nat, markers: map<nat, real>, ttl: real, now: real, i: nat)
    ensures !(i in ActiveWorkers(n, markers, ttl, now) && i in DeadWorkers(n, markers, ttl, now))
    ensures MarkerOr(markers, i, 0.0) + ttl == now ==>
              i !in ActiveWorkers(n, markers, ttl, now) && i !in DeadWorkers(n, markers, ttl, now)
  {
  }

  /** Every registered worker not at the exact boundary is either active or
      dead. */
  lemma ActiveOrDead(n: nat, markers: map<nat, real>, ttl: real, now: real, i: nat)
    requires i < n
    requires MarkerOr(markers, i, 0.0) + ttl != now
    ensures i in ActiveWorkers(n, markers, ttl, now) || i in DeadWorkers(n, markers, ttl, now)
  {
  }

  /** Once more than `ttl` seconds have passed since time 0, every unconfirmed
      worker is also listed as dead: its marker reads as 0 or -1. */
  lemma UnconfirmedIsDead(n: nat, markers: map<nat, real>, ttl: real, now: real, i: nat)
    requires now > ttl
    requires i in UnconfirmedWorkers(n, markers)
    ensures i in DeadWorkers(n, markers, ttl, now)
  {
  }
}

=== FILE: manager_loop.dfy ===
/** The manager's control loop: the heartbeat, accepting new connections,
    dispatching collected messages, and the stop broadcast.

    Pacing (`time.sleep`) is not modelled: one tick runs at one clock
    reading `now`. The connections `try_accept` finds during a tick are a
    parameter, in the order they were accepted.
 */
module ManagerLoop {
  import opened Messages
  import opened Liveness
  import opened ManagerState
  import opened Router

  /** A heartbeat is due once strictly more than half a ttl has passed
      since the last one. */
  predicate PingDue(st: Manager, now: real)
  {
    st.lastPing + st.ttl / 2.0 < now
  }

  /** `poll`: when a heartbeat is due, `:ping` is broadcast once and the
      heartbeat clock moves to `now`; otherwise nothing happens. */
  function Poll(st: Manager, now: real): (r: Manager)
    ensures |r.pipes| == |st.pipes|
    ensures !PingDue(st, now) ==> r == st
    ensures PingDue(st, now) ==> r.lastPing == now
    ensures PingDue(st, now) ==> forall j :: 0 <= j < |st.pipes| ==>
              r.pipes[j] == if st.pipes[j].broken then st.pipes[j] else Written(st.pipes[j], PING)
    ensures forall j :: 0 <= j < |st.pipes| ==>
              r.pipes[j].peer == st.pipes[j].peer && r.pipes[j].inbound == st.pipes[j].inbound
              && r.pipes[j].broken == st.pipes[j].broken
    ensures r.ttl == st.ttl && r.listening == st.listening && r.port == st.port
    ensures Extends(st.log, r.log) && AscendingDisconnects(r.log[|st.log|..])
  {
    if PingDue(st, now) then
      BroadcastDelivers(st, PING, now);
      BroadcastHooks(st, PING, now);
      Broadcast(st, PING, now).0.(lastPing := now)
    else st
  }

  /** Heartbeats are rate limited: after one at `t0`, polling again at `t1`
      sends nothing exactly when at most half a ttl has passed. */
  lemma PollRateLimit(st: Manager, t0: real, t1: real)
    requires st.ttl >= 0.0
    requires PingDue(st, t0)
    ensures var s1 := Poll(st, t0);
            (Poll(s1, t1) == s1) <==> t1 <= t0 + st.ttl / 2.0
  {
    var s1 := Poll(st, t0);
    if t1 > t0 + st.ttl / 2.0 {
      assert Poll(s1, t1).lastPing == t1 != t0 == s1.lastPing;
    }
  }

  /** Registering the accepted connections one after the other: they get
      the next indices in accept order, and `on_new_worker` fires for each
      new index in turn. */
  function AcceptAll(st: Manager, accepts: seq<Channel>): (r: Manager)
    ensures r.pipes == st.pipes + accepts
    ensures r.log == st.log + NewWorkers(|st.pipes|, |accepts|)
    ensures r.markers == st.markers && r.lastPing == st.lastPing && r.ttl == st.ttl
    ensures r.listening == st.listening && r.port == st.port
    decreases |accepts|
  {
    if accepts == [] then st
    else
      var next := Admit(st, accepts[0]);
      assert st.pipes + accepts == next.pipes + accepts[1..];
      assert st.log + NewWorkers(|st.pipes|, |accepts|)
          == next.log + NewWorkers(|next.pipes|, |accepts| - 1);
      AcceptAll(next, accepts[1..])
  }

  /** The `handle_msg` calls for the messages of one worker, in order. */
  function Handles(w: nat, ms: seq<Msg>): seq<Event>
  {
    if ms == [] then [] else [Handle(w, ms[0])] + Handles(w, ms[1..])
  }

  /** The `handle_msg` calls of a tick for the workers `k` to `n - 1`, in
      index order. */
  function DispatchFrom(msgs: map<nat, seq<Msg>>, k: nat, n: nat): seq<Event>
    decreases n - k
  {
    if k >= n then []
    else (if k in msgs then Handles(k, msgs[k]) else []) + DispatchFrom(msgs, k + 1, n)
  }

  /** The messages handed to `handle_msg` for worker `w`, in order. */
  function HandledBy(evs: seq<Event>, w: nat): seq<Msg>
  {
    if evs == [] then []
    else (if evs[0].Handle? && evs[0].worker == w then [evs[0].msg] else []) + HandledBy(evs[1..], w)
  }

  /** Only `handle_msg` calls, grouped by ascending worker index. */
  predicate HandlesInIndexOrder(evs: seq<Event>)
  {
    && (forall x :: 0 <= x < |evs| ==> evs[x].Handle?)
    && (forall a, b :: 0 <= a < b < |evs| ==> evs[a].worker <= evs[b].worker)
  }

  lemma {:induction false} HandledByAppend(a: seq<Event>, b: seq<Event>, w: nat)
    ensures HandledBy(a + b, w) == HandledBy(a, w) + HandledBy(b, w)
  {
    if a == [] {
      assert a + b == b;
    } else {
      assert (a + b)[1..] == a[1..] + b;
      HandledByAppend(a[1..], b, w);
    }
  }

  /** The calls for one worker's messages hand exactly those messages, in
      order, to that worker and nothing to any other. */
  lemma {:induction false} HandlesOne(v: nat, ms: seq<Msg>, w: nat)
    ensures HandledBy(Handles(v, ms), w) == if v == w then ms else []
    ensures |Handles(v, ms)| == |ms|
    ensures forall x :: 0 <= x < |ms| ==> Handles(v, ms)[x] == Handle(v, ms[x])
  {
    if ms != [] {
      HandlesOne(v, ms[1..], w);
      assert Handles(v, ms)[1..] == Handles(v, ms[1..]);
    }
  }

  /** Dispatch is FIFO per worker: each worker's messages reach
      `handle_msg` in arrival order, all of them and only them. */
  lemma {:induction false} DispatchFifo(msgs: map<nat, seq<Msg>>, k: nat, n: nat, w: nat)
    ensures HandledBy(DispatchFrom(msgs, k, n), w) == if k <= w < n && w in msgs then msgs[w] else []
    decreases n - k
  {
    if k < n {
      DispatchFifo(msgs, k + 1, n, w);
      var head := if k in msgs then Handles(k, msgs[k]) else [];
      var tail := DispatchFrom(msgs, k + 1, n);
      assert DispatchFrom(msgs, k, n) == head + tail;
      HandledByAppend(head, tail, w);
      if k in msgs {
        HandlesOne(k, msgs[k], w);
      }
    }
  }

  /** Dispatch serves the workers `k` to `n - 1` one after the other, in
      index order, and fires nothing but `handle_msg`. */
  lemma {:induction false} DispatchOrder(msgs: map<nat, seq<Msg>>, k: nat, n: nat)
    ensures HandlesInIndexOrder(DispatchFrom(msgs, k, n))
    ensures forall x :: 0 <= x < |DispatchFrom(msgs, k, n)| ==> k <= DispatchFrom(msgs, k, n)[x].worker < n
    decreases n - k
  {
    if k < n {
      DispatchOrder(msgs, k + 1, n);
      var head := if k in msgs then Handles(k, msgs[k]) else [];
      var tail := DispatchFrom(msgs, k + 1, n);
      assert DispatchFrom(msgs, k, n) == head + tail;
      if k in msgs {
        HandlesOne(k, msgs[k], k);
      }
      assert forall x :: 0 <= x < |head| ==> head[x] == Handle(k, head[x].msg);
    }
  }

  /** The first half of a tick: the heartbeat, the `loop` hook, then the
      connections accepted during this tick. */
  function Opening(st: Manager, now: real, accepts: seq<Channel>): (r: Manager)
    ensures r.pipes == Poll(st, now).pipes + accepts
    ensures r.log == Poll(st, now).log + [Loop] + NewWorkers(|st.pipes|, |accepts|)
  {
    var polled := Poll(st, now);
    AcceptAll(polled.(log := polled.log + [Loop]), accepts)
  }

  /** `run_once` without the pacing sleep: the opening steps, then `collect`
      and one `handle_msg` call per collected message. */
  function RunOnce(st: Manager, now: real, accepts: seq<Channel>): (r: Manager)
    requires st.listening
  {
    var (collected, msgs) := Collect(Opening(st, now, accepts), now);
    collected.(log := collected.log + DispatchFrom(msgs, 0, |collected.pipes|))
  }

  /** The `handle_msg` calls of a tick hand each worker the messages it had
      sent since the previous tick, `:pong` and `:register` left out. */
  lemma RunOnceHandles(st: Manager, now: real, accepts: seq<Channel>, w: nat)
    ensures var grown := Opening(st, now, accepts);
            var (collected, msgs) := Collect(grown, now);
            var all := st.pipes + accepts;
            HandledBy(DispatchFrom(msgs, 0, |collected.pipes|), w) ==
              if w < |all| then Payloads(all[w].inbound) else []
  {
    var grown := Opening(st, now, accepts);
    var (collected, msgs) := Collect(grown, now);
    var all := st.pipes + accepts;
    CollectResult(grown, now);
    DispatchFifo(msgs, 0, |collected.pipes|, w);
    if w < |all| {
      assert grown.pipes[w].inbound == all[w].inbound;
      if w !in msgs {
        assert all[w].inbound == [];
      }
    }
  }

  /** The log of a tick cut at the boundaries of its steps. */
  lemma RunOnceSegments(st: Manager, now: real, accepts: seq<Channel>)
    requires st.listening
    ensures var polled := Poll(st, now);
            var grown := Opening(st, now, accepts);
            var cm := Collect(grown, now);
            && |st.log| <= |polled.log| && |grown.log| <= |cm.0.log|
            && RunOnce(st, now, accepts).log
                 == st.log + polled.log[|st.log|..] + [Loop] + NewWorkers(|st.pipes|, |accepts|)
                    + cm.0.log[|grown.log|..] + DispatchFrom(cm.1, 0, |cm.0.pipes|)
  {
    var polled := Poll(st, now);
    var grown := Opening(st, now, accepts);
    var (collected, msgs) := Collect(grown, now);
    CollectHooks(grown, now);
    assert polled.log == st.log + polled.log[|st.log|..];
    assert collected.log == grown.log + collected.log[|grown.log|..];
  }

  /** The shape of a tick's log after `base`, for a tick that starts with
      `n` registered workers, accepts `k` connections and ends with the
      channels `all` as they were before it: disconnects from the heartbeat,
      then the `loop` hook, then `on_new_worker` for each accepted
      connection, then disconnects from reading, then `handle_msg` for every
      collected message, worker by worker in index order and FIFO per
      worker. */
  ghost predicate TickShape(base: seq<Event>, log: seq<Event>, n: nat, k: nat, all: seq<Channel>)
  {
    exists p: seq<Event>, c: seq<Event>, h: seq<Event> ::
      && AscendingDisconnects(p) && AscendingDisconnects(c) && HandlesInIndexOrder(h)
      && log == base + p + [Loop] + NewWorkers(n, k) + c + h
      && forall w: nat :: HandledBy(h, w) == if w < |all| then Payloads(all[w].inbound) else []
  }

  lemma TickShapeIntro(base: seq<Event>, n: nat, k: nat, all: seq<Channel>, p: seq<Event>, c: seq<Event>, h: seq<Event>)
    requires AscendingDisconnects(p) && AscendingDisconnects(c) && HandlesInIndexOrder(h)
    requires forall w: nat :: HandledBy(h, w) == if w < |all| then Payloads(all[w].inbound) else []
    ensures TickShape(base, base + p + [Loop] + NewWorkers(n, k) + c + h, n, k, all)
  {
  }

  /** The fixed step order of a tick: its hook calls after the old log have
      the shape `TickShape` describes. */
  lemma RunOnceOrder(st: Manager, now: real, accepts: seq<Channel>)
    requires st.listening
    ensures TickShape(st.log, RunOnce(st, now, accepts).log, |st.pipes|, |accepts|, st.pipes + accepts)
  {
    var polled := Poll(st, now);
    var grown := Opening(st, now, accepts);
    var (collected, msgs) := Collect(grown, now);
    RunOnceSegments(st, now, accepts);
    var p := polled.log[|st.log|..];
    var c := collected.log[|grown.log|..];
    var h := DispatchFrom(msgs, 0, |collected.pipes|);
    var all := st.pipes + accepts;
    CollectHooks(grown, now);
    DispatchOrder(msgs, 0, |collected.pipes|);
    forall w: nat
      ensures HandledBy(h, w) == if w < |all| then Payloads(all[w].inbound) else []
    {
      RunOnceHandles(st, now, accepts, w);
    }
    TickShapeIntro(st.log, |st.pipes|, |accepts|, all, p, c, h);
  }

  /** The `on_new_worker` calls for `k` connections registered after `n`. */
  function NewWorkers(n: nat, k: nat): (r: seq<Event>)
    ensures |r| == k
    ensures forall x :: 0 <= x < k ==> r[x] == NewWorker(n + x)
    decreases k
  {
    if k == 0 then [] else [NewWorker(n)] + NewWorkers(n + 1, k - 1)
  }

  /** A tick only appends to the registry: existing indices keep their
      connections, accepted ones follow in accept order, every channel ends
      drained, and the connections accepted in this tick are not pinged in
      it. */
  lemma RunOnceRegistry(st: Manager, now: real, accepts: seq<Channel>)
    requires st.listening
    ensures var r := RunOnce(st, now, accepts);
            && |r.pipes| == |st.pipes| + |accepts|
            && (forall j :: 0 <= j < |st.pipes| ==>
                  r.pipes[j].peer == st.pipes[j].peer && r.pipes[j].broken == st.pipes[j].broken)
            && (forall x :: 0 <= x < |accepts| ==>
                  r.pipes[|st.pipes| + x] == Drained(accepts[x]))
            && (forall j :: 0 <= j < |r.pipes| ==> r.pipes[j].inbound == [])
  {
    var polled := Poll(st, now);
    var grown := Opening(st, now, accepts);
    var collected := Collect(grown, now).0;
    var r := RunOnce(st, now, accepts);
    assert r.pipes == collected.pipes;
    CollectDrains(grown, now);
    assert |grown.pipes| == |st.pipes| + |accepts|;
    forall j | 0 <= j < |st.pipes|
      ensures r.pipes[j].peer == st.pipes[j].peer && r.pipes[j].broken == st.pipes[j].broken
    {
      assert grown.pipes[j] == polled.pipes[j];
    }
    forall x | 0 <= x < |accepts|
      ensures r.pipes[|st.pipes| + x] == Drained(accepts[x])
    {
      assert grown.pipes[|st.pipes| + x] == accepts[x];
    }
  }

  /** `stop`, without the process joins: `:stop` is broadcast to every
      registered worker. */
  function Stop(st: Manager, now: real): (r: Manager)
    ensures SameRegistry(st, r)
  {
    Broadcast(st, STOP, now).0
  }

  /** After `stop`, every healthy channel carries `:stop` as its last
      outbound message. */
  lemma StopReachesHealthyWorkers(st: Manager, now: real)
    ensures var r := Stop(st, now);
            forall j :: 0 <= j < |st.pipes| && !st.pipes[j].broken ==>
              r.pipes[j].outbound == st.pipes[j].outbound + [STOP]
  {
    BroadcastDelivers(st, STOP, now);
  }
}

=== FILE: manager_state.dfy ===
/** The manager's bookkeeping: the registry of channels, the marker map, the
    heartbeat clock and the log of user hooks fired so far.

    The user hooks (`loop`, `on_new_worker`, `on_worker_disconnect`,
    `handle_msg`) have no behaviour of their own in the model: each call is
    recorded as an `Event` at the end of `log`.
 */
module ManagerState {
  import opened Messages
  import opened Liveness

  /** The first port tried, and the bound of the linear port scan. */
  const DEFAULT_PORT: int := 6000
  const PORT_LIMIT: int := 6100

  datatype Event =
    | Loop
    | NewWorker(worker: nat)
    | Disconnect(worker: nat)
    | Handle(worker: nat, msg: Msg)

  datatype Manager = Manager(
    pipes: seq<Channel>,
    markers: map<nat, real>,
    lastPing: real,
    ttl: real,
    listening: bool,
    port: int,
    log: seq<Event>)

  /** `b` holds the same registry as `a`: same size, same connections at the
      same indices, same broken flags, same configuration and clock. */
  predicate SameRegistry(a: Manager, b: Manager)
  {
    && |a.pipes| == |b.pipes|
    && a.ttl == b.ttl && a.lastPing == b.lastPing
    && a.listening == b.listening && a.port == b.port
    && forall j :: 0 <= j < |a.pipes| ==>
         a.pipes[j].peer == b.pipes[j].peer && a.pipes[j].broken == b.pipes[j].broken
  }

  /** The log `after` is `before` with events appended. */
  predicate Extends(before: seq<Event>, after: seq<Event>)
  {
    |before| <= |after| && after[..|before|] == before
  }

  /** Only disconnect events, for strictly increasing worker indices. */
  predicate AscendingDisconnects(evs: seq<Event>)
  {
    && (forall k :: 0 <= k < |evs| ==> evs[k].Disconnect?)
    && (forall a, b :: 0 <= a < b < |evs| ==> evs[a].worker < evs[b].worker)
  }

  /** Appending to an appended log: the events added overall are those of
      the first step followed by those of the second. */
  lemma ExtendsTrans(a: seq<Event>, b: seq<Event>, c: seq<Event>)
    requires Extends(a, b) && Extends(b, c)
    ensures Extends(a, c) && c[|a|..] == b[|a|..] + c[|b|..]
  {
    assert c[..|b|][..|a|] == c[..|a|];
  }

  /** The disconnect hooks fired by a pass over the indices `idx`, in list
      order, when the pass fires for exactly the indices satisfying `fires`. */
  function Fired(idx: seq<nat>, fires: nat -> bool): seq<Event>
  {
    if idx == [] then []
    else (if fires(idx[0]) then [Disconnect(idx[0])] else []) + Fired(idx[1..], fires)
  }

  /** A pass over increasing indices fires one disconnect per index that
      fires, and nothing else, in increasing index order. */
  lemma {:induction false} FiredAscending(idx: seq<nat>, fires: nat -> bool)
    requires Ascending(idx)
    ensures AscendingDisconnects(Fired(idx, fires))
    ensures forall j: nat :: Disconnect(j) in Fired(idx, fires) <==> j in idx && fires(j)
  {
    if idx != [] {
      var rest := idx[1..];
      FiredAscending(rest, fires);
      var tail := Fired(rest, fires);
      var head: seq<Event> := if fires(idx[0]) then [Disconnect(idx[0])] else [];
      assert Fired(idx, fires) == head + tail;
      forall b | 0 <= b < |tail|
        ensures idx[0] < tail[b].worker
      {
        assert tail[b] == Disconnect(tail[b].worker);
        assert tail[b] in tail;
      }
      assert forall j :: j in idx <==> j == idx[0] || j in rest;
    }
  }

  /** Two passes over the same indices whose firing conditions agree on them
      fire the same hooks. */
  lemma {:induction false} FiredFrame(idx: seq<nat>, f: nat -> bool, g: nat -> bool)
    requires forall k :: 0 <= k < |idx| ==> f(idx[k]) == g(idx[k])
    ensures Fired(idx, f) == Fired(idx, g)
  {
    if idx != [] {
      FiredFrame(idx[1..], f, g);
    }
  }

  /** Regrouping log segments; stated once so that large proofs need not
      rediscover it in their own context. */
  lemma AppendAssoc(a: seq<Event>, b: seq<Event>, c: seq<Event>)
    ensures a + b + c == a + (b + c)
  {
  }

  /** A pass over `lo .. hi - 1` is the hook of `lo`, if it fires, followed
      by the pass over the rest. */
  lemma FiredRangeStep(lo: nat, hi: nat, f: nat -> bool)
    requires lo < hi
    ensures Fired(Range(lo, hi), f) == (if f(lo) then [Disconnect(lo)] else []) + Fired(Range(lo + 1, hi), f)
  {
    assert Range(lo, hi) == [lo] + Range(lo + 1, hi);
    assert Range(lo, hi)[1..] == Range(lo + 1, hi);
  }

  /** `_on_error`: the disconnect hook fires exactly when `i` was active just
      before; the marker is then reset to the sentinel, whatever it was. */
  function OnError(st: Manager, i: nat, now: real): (r: Manager)
    ensures r.pipes == st.pipes && SameRegistry(st, r)
    ensures i in r.markers && r.markers[i] == RESET && IsUnconfirmed(r.markers, i)
    ensures forall j: nat :: j != i ==> SameMarker(r.markers, st.markers, j)
    ensures Extends(st.log, r.log) && |r.log| <= |st.log| + 1
    ensures forall e :: e in r.log[|st.log|..] ==> e == Disconnect(i)
    ensures Disconnect(i) in r.log[|st.log|..] <==> IsActive(st.markers, st.ttl, now, i)
  {
    var wasActive := IsActive(st.markers, st.ttl, now, i);
    var log' := if wasActive then st.log + [Disconnect(i)] else st.log;
    st.(markers := st.markers[i := RESET], log := log')
  }

  /** A second failure right after the first changes nothing and does not
      fire the hook again, exactly when the sentinel plus `ttl` is no longer
      in the future: `now >= ttl - 1`. */
  lemma OnErrorIdempotent(st: Manager, i: nat, now: real)
    ensures var once := OnError(st, i, now);
            (OnError(once, i, now) == once) <==> now >= st.ttl + RESET
  {
    var once := OnError(st, i, now);
    var twice := OnError(once, i, now);
    assert MarkerOr(once.markers, i, 0.0) == RESET;
    if now < st.ttl + RESET {
      assert |twice.log| == |once.log| + 1;
    } else {
      assert twice.markers == once.markers;
    }
  }

  /** Registering a new channel: it is appended at the next index, the
      indices of the existing channels are untouched, and `on_new_worker`
      receives the new index `len(pipes) - 1`. */
  function Admit(st: Manager, ch: Channel): (r: Manager)
    ensures |r.pipes| == |st.pipes| + 1
    ensures forall j :: 0 <= j < |st.pipes| ==> r.pipes[j] == st.pipes[j]
    ensures r.pipes[|r.pipes| - 1] == ch
    ensures r.log == st.log + [NewWorker(|r.pipes| - 1)]
    ensures r.markers == st.markers && r.lastPing == st.lastPing && r.ttl == st.ttl
    ensures r.listening == st.listening && r.port == st.port
  {
    var pipes' := st.pipes + [ch];
    st.(pipes := pipes', log := st.log + [NewWorker(|pipes'| - 1)])
  }

  /** `create_local_worker`: registers the manager's end of a fresh pipe
      pair; the process launched on the other end is not modelled. */
  function CreateLocalWorker(st: Manager, ours: Channel): (r: Manager)
    ensures |r.pipes| == |st.pipes| + 1 && r.pipes[|st.pipes|] == ours
    ensures r.pipes[..|st.pipes|] == st.pipes
    ensures r.log == st.log + [NewWorker(|st.pipes|)]
  {
    Admit(st, ours)
  }

  /** The linear port scan of the constructor. `free` is the set of ports on
      which a listener can be bound. The scan stops at the first such port
      below the limit; when there is none, no listener exists and the port is
      left at the limit. */
  method ScanPort(free: set<int>) returns (listening: bool, port: int)
    ensures DEFAULT_PORT <= port <= PORT_LIMIT
    ensures listening <==> port < PORT_LIMIT
    ensures listening ==> port in free
    ensures forall p :: DEFAULT_PORT <= p < port ==> p !in free
  {
    listening := false;
    port := DEFAULT_PORT;
    while port < PORT_LIMIT
      invariant DEFAULT_PORT <= port <= PORT_LIMIT
      invariant forall p :: DEFAULT_PORT <= p < port ==> p !in free
    {
      if port in free {
        listening := true;
        return;
      }
      port := port + 1;
    }
  }

  /** A listener is bound exactly when some port of the scanned range is
      free. */
  lemma ScanFindsAnyFreePort(free: set<int>, listening: bool, port: int)
    requires DEFAULT_PORT <= port <= PORT_LIMIT
    requires listening <==> port < PORT_LIMIT
    requires listening ==> port in free
    requires forall p :: DEFAULT_PORT <= p < port ==> p !in free
    ensures listening <==> exists p :: DEFAULT_PORT <= p < PORT_LIMIT && p in free
  {
    if !listening {
      assert forall p :: DEFAULT_PORT <= p < PORT_LIMIT ==> p !in free;
    }
  }

  /** The constructor: an empty registry, no markers, the heartbeat clock
      started at `now`. */
  method NewManager(free: set<int>, ttl: real, now: real) returns (st: Manager)
    ensures st.pipes == [] && st.markers == map[] && st.log == []
    ensures st.ttl == ttl && st.lastPing == now
    ensures DEFAULT_PORT <= st.port <= PORT_LIMIT
    ensures st.listening <==> exists p :: DEFAULT_PORT <= p < PORT_LIMIT && p in free
    ensures st.listening ==> st.port in free && forall p :: DEFAULT_PORT <= p < st.port ==> p !in free
    ensures !st.listening ==> st.port == PORT_LIMIT
  {
    var listening, port := ScanPort(free);
    ScanFindsAnyFreePort(free, listening, port);
    st := Manager([], map[], now, ttl, listening, port, []);
  }
}

=== FILE: messages.dfy ===
/** Messages and channels shared by the manager and its workers.

    Messages are opaque values compared by equality; the four control opcodes
    are the reserved strings the manager and worker exchange. A channel is one
    end of a duplex pipe seen from the manager: the messages buffered for the
    manager to read, the messages the manager has written, and whether the
    connection is broken. `peer` is an abstract identity of the connection that
    no operation changes; it lets the model state that an index keeps naming
    the same connection.
 */
module Messages {

  type Msg = string

  const REGISTER: Msg := ":register"
  const PING: Msg := ":ping"
  const PONG: Msg := ":pong"
  const STOP: Msg := ":stop"

  datatype Channel = Channel(peer: nat, inbound: seq<Msg>, outbound: seq<Msg>, broken: bool)

  /** The channel after one successful write of `m`. */
  function Written(ch: Channel, m: Msg): (r: Channel)
    ensures r.outbound == ch.outbound + [m]
    ensures r.peer == ch.peer && r.inbound == ch.inbound && r.broken == ch.broken
  {
    ch.(outbound := ch.outbound + [m])
  }

  /** The channel after all its buffered messages have been read. */
  function Drained(ch: Channel): (r: Channel)
    ensures r.inbound == []
    ensures r.peer == ch.peer && r.outbound == ch.outbound && r.broken == ch.broken
  {
    ch.(inbound := [])
  }

  /** The messages of `s` that are not in `drop`, in their original order:
      every kept message occurs as often as in `s`. */
  function Keep(s: seq<Msg>, drop: set<Msg>): (r: seq<Msg>)
    ensures |r| <= |s|
    ensures forall m :: m in r <==> m in s && m !in drop
    ensures forall m :: m !in drop ==> Count(r, m) == Count(s, m)
  {
    if s == [] then []
    else
      var rest := Keep(s[1..], drop);
      var r := (if s[0] in drop then [] else [s[0]]) + rest;
      assert forall m :: m !in drop ==> Count(r, m) == Count(s, m) by {
        forall m | m !in drop
          ensures Count(r, m) == Count(s, m)
        {
          if s[0] !in drop {
            assert r[0] == s[0] && r[1..] == rest;
          } else {
            assert r == rest;
          }
        }
      }
      r
  }

  /** Filtering distributes over concatenation: draining two batches one
      after the other yields what draining them at once would. */
  lemma {:induction false} KeepAppend(a: seq<Msg>, b: seq<Msg>, drop: set<Msg>)
    ensures Keep(a + b, drop) == Keep(a, drop) + Keep(b, drop)
  {
    if a == [] {
      assert a + b == b;
    } else {
      assert (a + b)[0] == a[0];
      assert (a + b)[1..] == a[1..] + b;
      KeepAppend(a[1..], b, drop);
    }
  }

  /** Filtering a batch made only of dropped messages leaves nothing. */
  lemma KeepOnlyDropped(s: seq<Msg>, drop: set<Msg>)
    requires forall x :: 0 <= x < |s| ==> s[x] in drop
    ensures Keep(s, drop) == []
  {
  }

  /** The acknowledgements the manager consumes silently. */
  const ACKS: set<Msg> := {PONG, REGISTER}

  /** The messages of a drained batch that reach the manager's handler. */
  function Payloads(s: seq<Msg>): (r: seq<Msg>)
    ensures forall m :: m in r <==> m in s && m != PONG && m != REGISTER
  {
    Keep(s, ACKS)
  }

  /** Number of occurrences of `m` in `s`. */
  function Count(s: seq<Msg>, m: Msg): (r: nat)
    ensures r <= |s|
    ensures r == 0 <==> m !in s
  {
    if s == [] then 0 else (if s[0] == m then 1 else 0) + Count(s[1..], m)
  }

  /** Position of the first occurrence of `m` in `s`. */
  function IndexOf(s: seq<Msg>, m: Msg): (r: nat)
    requires m in s
    ensures r < |s| && s[r] == m
    ensures m !in s[..r]
  {
    if s[0] == m then 0
    else
      assert s == [s[0]] + s[1..];
      var k := IndexOf(s[1..], m);
      assert s[..k + 1] == [s[0]] + s[1..][..k];
      k + 1
  }
}

=== FILE: router.dfy ===
/** Sending to and reading from the registered channels.

    A write to a broken channel fails (the source's `BrokenPipeError`); a read
    from a broken channel first yields what is still buffered and then fails
    (end of file). Either failure goes through `OnError`.
 */
module Router {
  import opened Messages
  import opened Liveness
  import opened ManagerState

  /** `send`: on a healthy channel `m` is appended to its outbound queue and
      the call succeeds; on a broken one nothing is written, the disconnect
      transition runs and the call fails. */
  function Send(st: Manager, i: nat, m: Msg, now: real): (r: (Manager, bool))
    requires i < |st.pipes|
    ensures SameRegistry(st, r.0)
    ensures r.1 <==> !st.pipes[i].broken
    ensures forall j :: 0 <= j < |st.pipes| ==>
              r.0.pipes[j] == if j == i && r.1 then Written(st.pipes[j], m) else st.pipes[j]
    ensures r.1 ==> r.0.markers == st.markers && r.0.log == st.log
    ensures !r.1 ==> r.0 == OnError(st, i, now)
  {
    if st.pipes[i].broken then (OnError(st, i, now), false)
    else (st.(pipes := st.pipes[i := Written(st.pipes[i], m)]), true)
  }

  // ---------------------------------------------------------------------
  // broadcast

  /** The sends of `broadcast` from index `k` on, in index order. */
  function SendFrom(st: Manager, m: Msg, now: real, k: nat): (r: (Manager, seq<bool>))
    requires k <= |st.pipes|
    ensures SameRegistry(st, r.0)
    ensures |r.1| == |st.pipes| - k
    decreases |st.pipes| - k
  {
    if k == |st.pipes| then (st, [])
    else
      var (s1, ok) := Send(st, k, m, now);
      var (s2, rest) := SendFrom(s1, m, now, k + 1);
      (s2, [ok] + rest)
  }

  /** The k-th flag of the sends from `k` on is the result of the send to
      index `k`: success exactly on a healthy channel. */
  lemma {:induction false} SendFromResults(st: Manager, m: Msg, now: real, k: nat)
    requires k <= |st.pipes|
    ensures var r := SendFrom(st, m, now, k);
            forall j :: k <= j < |st.pipes| ==> (r.1[j - k] <==> !st.pipes[j].broken)
    decreases |st.pipes| - k
  {
    if k < |st.pipes| {
      var (s1, ok) := Send(st, k, m, now);
      SendFromResults(s1, m, now, k + 1);
      var r := SendFrom(st, m, now, k);
      var r1 := SendFrom(s1, m, now, k + 1);
      assert r.1 == [ok] + r1.1;
      forall j | k < j < |st.pipes|
        ensures r.1[j - k] <==> !st.pipes[j].broken
      {
        assert r.1[j - k] == r1.1[j - (k + 1)];
        assert s1.pipes[j].broken == st.pipes[j].broken;
      }
    }
  }

  /** The sends from `k` on write `m` to every healthy channel from `k` on
      and to no other. */
  lemma {:induction false} SendFromPipes(st: Manager, m: Msg, now: real, k: nat)
    requires k <= |st.pipes|
    ensures var r := SendFrom(st, m, now, k).0;
            forall j :: 0 <= j < |st.pipes| ==>
              r.pipes[j] == if k <= j && !st.pipes[j].broken then Written(st.pipes[j], m) else st.pipes[j]
    decreases |st.pipes| - k
  {
    if k < |st.pipes| {
      var s1 := Send(st, k, m, now).0;
      SendFromPipes(s1, m, now, k + 1);
      var r := SendFrom(st, m, now, k).0;
      assert r == SendFrom(s1, m, now, k + 1).0;
      forall j | 0 <= j < |st.pipes|
        ensures r.pipes[j] == if k <= j && !st.pipes[j].broken then Written(st.pipes[j], m) else st.pipes[j]
      {
        if j != k {
          assert s1.pipes[j] == st.pipes[j];
        }
      }
    }
  }

  /** The sends from `k` on reset the marker of every broken channel from
      `k` on and leave every other marker as it was. */
  lemma {:induction false} SendFromMarkers(st: Manager, m: Msg, now: real, k: nat)
    requires k <= |st.pipes|
    ensures var r := SendFrom(st, m, now, k).0;
            forall j: nat ::
              if k <= j < |st.pipes| && st.pipes[j].broken
              then j in r.markers && r.markers[j] == RESET
              else SameMarker(r.markers, st.markers, j)
    decreases |st.pipes| - k
  {
    if k < |st.pipes| {
      var s1 := Send(st, k, m, now).0;
      SendFromMarkers(s1, m, now, k + 1);
      var r := SendFrom(st, m, now, k).0;
      assert r == SendFrom(s1, m, now, k + 1).0;
      forall j: nat
        ensures if k <= j < |st.pipes| && st.pipes[j].broken
                then j in r.markers && r.markers[j] == RESET
                else SameMarker(r.markers, st.markers, j)
      {
        if j != k {
          assert SameMarker(s1.markers, st.markers, j);
          if j < |st.pipes| {
            assert s1.pipes[j].broken == st.pipes[j].broken;
          }
        } else {
          assert SameMarker(r.markers, s1.markers, k);
          if !st.pipes[k].broken {
            assert s1.markers == st.markers;
          }
        }
      }
    }
  }

  /** The hook fires on a send to `j` exactly when the channel is broken and
      the worker active. */
  predicate WriteFailureFires(st: Manager, j: nat, now: real)
  {
    j < |st.pipes| && st.pipes[j].broken && IsActive(st.markers, st.ttl, now, j)
  }

  /** `WriteFailureFires` as the firing condition of a pass. */
  function WriteFailures(st: Manager, now: real): nat -> bool
  {
    (j: nat) => WriteFailureFires(st, j, now)
  }

  /** One step of the sends: the send to `k` appends its own hook, if any,
      and leaves the firing condition of every later index as it was. */
  lemma SendFromLogStep(st: Manager, m: Msg, now: real, k: nat)
    requires k < |st.pipes|
    ensures var s1 := Send(st, k, m, now).0;
            && SendFrom(st, m, now, k).0 == SendFrom(s1, m, now, k + 1).0
            && s1.log == st.log + (if WriteFailureFires(st, k, now) then [Disconnect(k)] else [])
            && Fired(Range(k + 1, |st.pipes|), WriteFailures(s1, now))
               == Fired(Range(k + 1, |st.pipes|), WriteFailures(st, now))
  {
    var s1 := Send(st, k, m, now).0;
    var rest := Range(k + 1, |st.pipes|);
    forall x | 0 <= x < |rest|
      ensures WriteFailureFires(s1, rest[x], now) == WriteFailureFires(st, rest[x], now)
    {
      assert SameMarker(s1.markers, st.markers, rest[x]);
    }
    FiredFrame(rest, WriteFailures(s1, now), WriteFailures(st, now));
  }

  /** The sends from `k` on append to the log exactly the disconnects of a
      pass over the indices from `k` on, firing where a write fails on an
      active worker. */
  lemma {:induction false} SendFromLog(st: Manager, m: Msg, now: real, k: nat)
    requires k <= |st.pipes|
    ensures SendFrom(st, m, now, k).0.log ==
            st.log + Fired(Range(k, |st.pipes|), WriteFailures(st, now))
    decreases |st.pipes| - k
  {
    if k < |st.pipes| {
      var s1 := Send(st, k, m, now).0;
      var rest := Range(k + 1, |st.pipes|);
      var f := WriteFailures(st, now);
      var f1 := WriteFailures(s1, now);
      var head: seq<Event> := if f(k) then [Disconnect(k)] else [];
      assert SendFrom(s1, m, now, k + 1).0.log == s1.log + Fired(rest, f1) by {
        SendFromLog(s1, m, now, k + 1);
      }
      assert SendFrom(st, m, now, k).0 == SendFrom(s1, m, now, k + 1).0
          && s1.log == st.log + head && Fired(rest, f1) == Fired(rest, f) by {
        SendFromLogStep(st, m, now, k);
      }
      assert Fired(Range(k, |st.pipes|), f) == head + Fired(rest, f) by {
        FiredRangeStep(k, |st.pipes|, f);
      }
      AppendAssoc(st.log, head, Fired(rest, f));
    }
  }

  /** `broadcast`: one send per registered index, in index order. */
  function Broadcast(st: Manager, m: Msg, now: real): (r: (Manager, seq<bool>))
    ensures SameRegistry(st, r.0)
    ensures |r.1| == |st.pipes|
  {
    SendFrom(st, m, now, 0)
  }

  /** The k-th flag of `broadcast` is the result of the send to index k, and
      a failure does not stop the later sends: every healthy channel receives
      `m`, whatever happened before it. */
  lemma BroadcastDelivers(st: Manager, m: Msg, now: real)
    ensures var r := Broadcast(st, m, now);
            && (forall j :: 0 <= j < |st.pipes| ==> (r.1[j] <==> !st.pipes[j].broken))
            && (forall j :: 0 <= j < |st.pipes| ==>
                  r.0.pipes[j] == if st.pipes[j].broken then st.pipes[j] else Written(st.pipes[j], m))
  {
    SendFromResults(st, m, now, 0);
    SendFromPipes(st, m, now, 0);
  }

  /** `broadcast` resets the marker of every broken channel and of no other. */
  lemma BroadcastMarkers(st: Manager, m: Msg, now: real)
    ensures var r := Broadcast(st, m, now).0;
            forall j: nat ::
              if j < |st.pipes| && st.pipes[j].broken
              then j in r.markers && r.markers[j] == RESET && IsUnconfirmed(r.markers, j)
              else SameMarker(r.markers, st.markers, j)
  {
    SendFromMarkers(st, m, now, 0);
  }

  /** `broadcast` fires the disconnect hook once for every broken channel
      whose worker was active, in index order, and for no other. */
  lemma BroadcastHooks(st: Manager, m: Msg, now: real)
    ensures var r := Broadcast(st, m, now).0;
            && Extends(st.log, r.log) && AscendingDisconnects(r.log[|st.log|..])
            && forall j: nat :: Disconnect(j) in r.log[|st.log|..] <==>
                 j < |st.pipes| && st.pipes[j].broken && IsActive(st.markers, st.ttl, now, j)
  {
    var r := Broadcast(st, m, now).0;
    var f := WriteFailures(st, now);
    SendFromLog(st, m, now, 0);
    FiredAscending(Range(0, |st.pipes|), f);
    assert r.log[|st.log|..] == Fired(Range(0, |st.pipes|), f);
  }

  // ---------------------------------------------------------------------
  // reading: collect and flush

  /** The two read loops of the manager. Both call `poll` and `recv` until
      `poll` reports nothing; a broken channel reports end-of-file after its
      buffered messages, and the `recv` of that end-of-file raises.
      `collect` stamps the marker after each successful `recv`, so the
      end-of-file is never stamped; `flush` stamps before each `recv`, so it
      stamps the end-of-file too. */
  datatype ReadLoop = CollectLoop | FlushLoop

  /** The marker is stamped with `now` before the failing `recv` of a
      broken channel: anything was read, or the loop stamps before `recv`. */
  predicate StampedBeforeFailure(ch: Channel, loop: ReadLoop)
  {
    |ch.inbound| > 0 || (loop == FlushLoop && ch.broken)
  }

  /** A read failure on `i` fires the disconnect hook: the marker checked is
      the one the loop left, which is `now` whenever it was stamped, so the
      worker then counts as active exactly when `ttl > 0`. */
  predicate ReadFailureFires(st: Manager, i: nat, now: real, loop: ReadLoop)
    requires i < |st.pipes|
  {
    st.pipes[i].broken &&
    if StampedBeforeFailure(st.pipes[i], loop) then st.ttl > 0.0 else IsActive(st.markers, st.ttl, now, i)
  }

  /** The marker of `i` after its channel was drained at `now`. */
  predicate MarkerAfterRead(st: Manager, markers: map<nat, real>, i: nat, now: real)
    requires i < |st.pipes|
  {
    if st.pipes[i].broken then i in markers && markers[i] == RESET
    else if |st.pipes[i].inbound| > 0 then i in markers && markers[i] == now
    else SameMarker(markers, st.markers, i)
  }

  /** Reading channel `i` until it is empty with the given loop: the marker
      is stamped with `now` when anything was read, and by `flush` also at
      the end-of-file of a broken channel; a broken channel then fails and
      runs the disconnect transition. */
  function DrainPipe(st: Manager, i: nat, now: real, loop: ReadLoop): (r: Manager)
    requires i < |st.pipes|
    ensures SameRegistry(st, r)
    ensures forall j :: 0 <= j < |st.pipes| ==>
              r.pipes[j] == if j == i then Drained(st.pipes[j]) else st.pipes[j]
    ensures MarkerAfterRead(st, r.markers, i, now)
    ensures forall j: nat :: j != i ==> SameMarker(r.markers, st.markers, j)
    ensures Extends(st.log, r.log) && |r.log| <= |st.log| + 1
    ensures forall e :: e in r.log[|st.log|..] ==> e == Disconnect(i)
    ensures Disconnect(i) in r.log[|st.log|..] <==> ReadFailureFires(st, i, now, loop)
  {
    var ch := st.pipes[i];
    var markers' := if StampedBeforeFailure(ch, loop) then st.markers[i := now] else st.markers;
    var s1 := st.(pipes := st.pipes[i := Drained(ch)], markers := markers');
    if ch.broken then OnError(s1, i, now) else s1
  }

  /** Draining the listed channels one after the other, in list order. */
  function DrainList(st: Manager, idx: seq<nat>, now: real, loop: ReadLoop): (r: Manager)
    requires forall k :: 0 <= k < |idx| ==> idx[k] < |st.pipes|
    ensures SameRegistry(st, r)
    decreases |idx|
  {
    if idx == [] then st
    else DrainList(DrainPipe(st, idx[0], now, loop), idx[1..], now, loop)
  }

  /** Draining distinct channels empties each listed channel and no other. */
  lemma {:induction false} DrainListPipes(st: Manager, idx: seq<nat>, now: real, loop: ReadLoop)
    requires Ascending(idx)
    requires forall k :: 0 <= k < |idx| ==> idx[k] < |st.pipes|
    ensures var r := DrainList(st, idx, now, loop);
            forall j :: 0 <= j < |st.pipes| ==>
              r.pipes[j] == if j in idx then Drained(st.pipes[j]) else st.pipes[j]
    decreases |idx|
  {
    if idx != [] {
      var s1 := DrainPipe(st, idx[0], now, loop);
      var rest := idx[1..];
      assert forall j :: j in rest ==> idx[0] < j;
      DrainListPipes(s1, rest, now, loop);
      var r := DrainList(s1, rest, now, loop);
      forall j | 0 <= j < |st.pipes|
        ensures r.pipes[j] == if j in idx then Drained(st.pipes[j]) else st.pipes[j]
      {
        assert j in idx <==> j == idx[0] || j in rest;
        if j == idx[0] {
          assert r.pipes[j] == s1.pipes[j];
        } else {
          assert s1.pipes[j] == st.pipes[j];
        }
      }
    }
  }

  /** Draining distinct channels stamps the marker of each listed channel as
      its read left it and touches no other marker. */
  lemma {:induction false} DrainListMarkers(st: Manager, idx: seq<nat>, now: real, loop: ReadLoop)
    requires Ascending(idx)
    requires forall k :: 0 <= k < |idx| ==> idx[k] < |st.pipes|
    ensures var r := DrainList(st, idx, now, loop);
            forall j: nat ::
              if j in idx then MarkerAfterRead(st, r.markers, j, now)
              else SameMarker(r.markers, st.markers, j)
    decreases |idx|
  {
    if idx != [] {
      var s1 := DrainPipe(st, idx[0], now, loop);
      var rest := idx[1..];
      assert forall j :: j in rest ==> idx[0] < j;
      DrainListMarkers(s1, rest, now, loop);
      var r := DrainList(s1, rest, now, loop);
      forall j: nat
        ensures if j in idx then MarkerAfterRead(st, r.markers, j, now)
                else SameMarker(r.markers, st.markers, j)
      {
        assert j in idx <==> j == idx[0] || j in rest;
        if j == idx[0] {
          assert SameMarker(r.markers, s1.markers, j);
          assert MarkerAfterRead(st, s1.markers, j, now);
        } else {
          assert SameMarker(s1.markers, st.markers, j);
          if j in rest {
            assert s1.pipes[j] == st.pipes[j];
            assert MarkerAfterRead(s1, r.markers, j, now);
          } else {
            assert SameMarker(r.markers, s1.markers, j);
          }
        }
      }
    }
  }

  /** What draining distinct channels does to the channels and the markers:
      each listed channel is emptied and its marker stamped, the others are
      not touched. */
  lemma DrainListEffect(st: Manager, idx: seq<nat>, now: real, loop: ReadLoop)
    requires Ascending(idx)
    requires forall k :: 0 <= k < |idx| ==> idx[k] < |st.pipes|
    ensures var r := DrainList(st, idx, now, loop);
            && (forall j :: 0 <= j < |st.pipes| ==>
                  r.pipes[j] == if j in idx then Drained(st.pipes[j]) else st.pipes[j])
            && (forall j: nat ::
                  if j in idx then MarkerAfterRead(st, r.markers, j, now)
                  else SameMarker(r.markers, st.markers, j))
  {
    DrainListPipes(st, idx, now, loop);
    DrainListMarkers(st, idx, now, loop);
  }

  /** The hook fires on a read from `j` exactly when the read fails on a
      worker that counts as active. */
  predicate ReadFires(st: Manager, j: nat, now: real, loop: ReadLoop)
  {
    j < |st.pipes| && ReadFailureFires(st, j, now, loop)
  }

  /** `ReadFires` as the firing condition of a pass. */
  function ReadFailures(st: Manager, now: real, loop: ReadLoop): nat -> bool
  {
    (j: nat) => ReadFires(st, j, now, loop)
  }

  /** One step of draining: the first listed channel appends its own hook,
      if any, and leaves the firing condition of the later ones as it was. */
  lemma DrainListLogStep(st: Manager, idx: seq<nat>, now: real, loop: ReadLoop)
    requires idx != [] && Ascending(idx)
    requires forall k :: 0 <= k < |idx| ==> idx[k] < |st.pipes|
    ensures var s1 := DrainPipe(st, idx[0], now, loop);
            && DrainList(st, idx, now, loop) == DrainList(s1, idx[1..], now, loop)
            && s1.log == st.log + (if ReadFires(st, idx[0], now, loop) then [Disconnect(idx[0])] else [])
            && Fired(idx[1..], ReadFailures(s1, now, loop))
               == Fired(idx[1..], ReadFailures(st, now, loop))
  {
    var s1 := DrainPipe(st, idx[0], now, loop);
    var rest := idx[1..];
    forall x | 0 <= x < |rest|
      ensures ReadFires(s1, rest[x], now, loop) == ReadFires(st, rest[x], now, loop)
    {
      assert idx[0] < idx[x + 1];
      assert s1.pipes[rest[x]] == st.pipes[rest[x]];
      assert SameMarker(s1.markers, st.markers, rest[x]);
    }
    FiredFrame(rest, ReadFailures(s1, now, loop), ReadFailures(st, now, loop));
  }

  /** Draining distinct channels appends to the log exactly the disconnects
      of a pass over the listed indices, firing where a read fails on a
      worker that counts as active. */
  lemma {:induction false} DrainListLog(st: Manager, idx: seq<nat>, now: real, loop: ReadLoop)
    requires Ascending(idx)
    requires forall k :: 0 <= k < |idx| ==> idx[k] < |st.pipes|
    ensures DrainList(st, idx, now, loop).log == st.log + Fired(idx, ReadFailures(st, now, loop))
    decreases |idx|
  {
    if idx != [] {
      var s1 := DrainPipe(st, idx[0], now, loop);
      DrainListLog(s1, idx[1..], now, loop);
      DrainListLogStep(st, idx, now, loop);
      var f := ReadFailures(st, now, loop);
      var head: seq<Event> := if f(idx[0]) then [Disconnect(idx[0])] else [];
      assert Fired(idx, f) == head + Fired(idx[1..], f);
      AppendAssoc(st.log, head, Fired(idx[1..], f));
    }
  }

  /** The reads of `collect` from index `k` on. */
  function CollectFrom(st: Manager, now: real, k: nat): (r: (Manager, map<nat, seq<Msg>>))
    requires k <= |st.pipes|
    ensures SameRegistry(st, r.0)
    decreases |st.pipes| - k
  {
    if k == |st.pipes| then (st, map[])
    else
      var ch := st.pipes[k];
      var s1 := DrainPipe(st, k, now, CollectLoop);
      var (s2, rest) := CollectFrom(s1, now, k + 1);
      (s2, if |ch.inbound| > 0 then rest[k := Payloads(ch.inbound)] else rest)
  }

  /** What the reads from `k` on return: an entry for exactly the channels
      from `k` on that delivered anything, holding their messages other than
      acknowledgements in arrival order (possibly none). */
  lemma {:induction false} CollectFromResult(st: Manager, now: real, k: nat)
    requires k <= |st.pipes|
    ensures var r := CollectFrom(st, now, k).1;
            && (forall j: nat :: j in r <==> k <= j < |st.pipes| && |st.pipes[j].inbound| > 0)
            && (forall j: nat :: j in r ==> j < |st.pipes| && r[j] == Payloads(st.pipes[j].inbound))
    decreases |st.pipes| - k
  {
    if k < |st.pipes| {
      var ch := st.pipes[k];
      var s1 := DrainPipe(st, k, now, CollectLoop);
      CollectFromResult(s1, now, k + 1);
      var rest := CollectFrom(s1, now, k + 1).1;
      var r := CollectFrom(st, now, k).1;
      assert r == if |ch.inbound| > 0 then rest[k := Payloads(ch.inbound)] else rest;
      forall j: nat
        ensures j in r <==> k <= j < |st.pipes| && |st.pipes[j].inbound| > 0
        ensures j in r ==> j < |st.pipes| && r[j] == Payloads(st.pipes[j].inbound)
      {
        if j != k {
          assert j in r <==> j in rest;
          if k < j < |st.pipes| {
            assert s1.pipes[j] == st.pipes[j];
          }
        }
      }
    }
  }

  /** The state left by `collect` is that of draining every channel in index
      order. */
  lemma {:induction false} CollectFromDrains(st: Manager, now: real, k: nat)
    requires k <= |st.pipes|
    ensures CollectFrom(st, now, k).0 == DrainList(st, Range(k, |st.pipes|), now, CollectLoop)
    decreases |st.pipes| - k
  {
    if k < |st.pipes| {
      var s1 := DrainPipe(st, k, now, CollectLoop);
      CollectFromDrains(s1, now, k + 1);
      assert Range(k, |st.pipes|)[1..] == Range(k + 1, |st.pipes|);
    }
  }

  /** `collect`: every channel is drained, in index order. */
  function Collect(st: Manager, now: real): (r: (Manager, map<nat, seq<Msg>>))
    ensures SameRegistry(st, r.0)
    ensures forall j: nat :: j in r.1 ==> j < |st.pipes|
  {
    CollectFromResult(st, now, 0);
    CollectFrom(st, now, 0)
  }

  /** What `collect` returns: an entry for exactly the channels that
      delivered anything, holding their messages other than `:pong` and
      `:register` in arrival order; a channel that delivered only
      acknowledgements gets an empty entry. */
  lemma CollectResult(st: Manager, now: real)
    ensures var r := Collect(st, now).1;
            && (forall j: nat :: j in r <==> j < |st.pipes| && |st.pipes[j].inbound| > 0)
            && (forall j: nat :: j in r ==> j < |st.pipes| && r[j] == Payloads(st.pipes[j].inbound))
  {
    CollectFromResult(st, now, 0);
  }

  /** After `collect` every channel is empty, and every marker is the one
      the reads left: reset on a failed channel, `now` on one that delivered
      anything, untouched otherwise. */
  lemma CollectDrains(st: Manager, now: real)
    ensures var r := Collect(st, now).0;
            && (forall j :: 0 <= j < |st.pipes| ==> r.pipes[j] == Drained(st.pipes[j]) && r.pipes[j].inbound == [])
            && (forall j: nat ::
                  if j < |st.pipes| then MarkerAfterRead(st, r.markers, j, now)
                  else SameMarker(r.markers, st.markers, j))
  {
    CollectFromDrains(st, now, 0);
    DrainListEffect(st, Range(0, |st.pipes|), now, CollectLoop);
  }

  /** `collect` fires the disconnect hook once for every failing channel
      whose worker counted as active after the reads, in index order; a
      failure on one channel does not stop the reads of the others. */
  lemma CollectHooks(st: Manager, now: real)
    ensures var r := Collect(st, now).0;
            && Extends(st.log, r.log) && AscendingDisconnects(r.log[|st.log|..])
            && forall j: nat :: Disconnect(j) in r.log[|st.log|..] <==>
                 j < |st.pipes| && ReadFailureFires(st, j, now, CollectLoop)
  {
    var r := Collect(st, now).0;
    var f := ReadFailures(st, now, CollectLoop);
    CollectFromDrains(st, now, 0);
    DrainListLog(st, Range(0, |st.pipes|), now, CollectLoop);
    FiredAscending(Range(0, |st.pipes|), f);
    assert r.log[|st.log|..] == Fired(Range(0, |st.pipes|), f);
  }

  /** `flush`: the channels of the workers active at `now` are drained and
      their messages discarded. */
  function Flush(st: Manager, now: real): (r: Manager)
    ensures SameRegistry(st, r)
  {
    DrainList(st, ActiveWorkers(|st.pipes|, st.markers, st.ttl, now), now, FlushLoop)
  }

  /** `flush` empties exactly the channels of the workers active at `now`
      and leaves their markers as the reads do: -1 after a failure, `now`
      after a successful read. The channels and markers of the others are
      not touched. */
  lemma FlushDrainsActive(st: Manager, now: real)
    ensures var r := Flush(st, now);
            && (forall j :: 0 <= j < |st.pipes| ==>
                  r.pipes[j] == if IsActive(st.markers, st.ttl, now, j) then Drained(st.pipes[j]) else st.pipes[j])
            && (forall j: nat :: !IsActive(st.markers, st.ttl, now, j) ==> SameMarker(r.markers, st.markers, j))
            && (forall j :: 0 <= j < |st.pipes| && IsActive(st.markers, st.ttl, now, j) ==>
                  MarkerAfterRead(st, r.markers, j, now))
  {
    DrainListEffect(st, ActiveWorkers(|st.pipes|, st.markers, st.ttl, now), now, FlushLoop);
  }

  /** On a broken channel the two loops decide the hook differently: `flush`
      has stamped `now` before the failing `recv`, so it fires exactly when
      `ttl > 0`; `collect` with nothing buffered checks the marker it found. */
  lemma ReadLoopsOnBrokenChannel(st: Manager, i: nat, now: real)
    requires i < |st.pipes| && st.pipes[i].broken
    ensures ReadFailureFires(st, i, now, FlushLoop) <==> st.ttl > 0.0
    ensures |st.pipes[i].inbound| == 0 ==>
              (ReadFailureFires(st, i, now, CollectLoop) <==> IsActive(st.markers, st.ttl, now, i))
    ensures |st.pipes[i].inbound| > 0 ==>
              (ReadFailureFires(st, i, now, CollectLoop) <==> st.ttl > 0.0)
  {
  }

  /** `flush` fires the disconnect hook once for every broken channel of a
      worker active at the start, provided `ttl > 0`, in index order: the
      failing `recv` always follows a stamp with `now`. */
  lemma FlushHooks(st: Manager, now: real)
    ensures var r := Flush(st, now);
            && Extends(st.log, r.log) && AscendingDisconnects(r.log[|st.log|..])
            && forall j: nat :: Disconnect(j) in r.log[|st.log|..] <==>
                 j < |st.pipes| && IsActive(st.markers, st.ttl, now, j) && st.pipes[j].broken && st.ttl > 0.0
  {
    var idx := ActiveWorkers(|st.pipes|, st.markers, st.ttl, now);
    var f := ReadFailures(st, now, FlushLoop);
    DrainListLog(st, idx, now, FlushLoop);
    FiredAscending(idx, f);
    assert Flush(st, now).log[|st.log|..] == Fired(idx, f);
  }
}

=== FILE: single.dfy ===
/** The single-process baseline: trial-division primality and the loop that
    drains a list of tasks into a result table.

    Python's `%` floors while Dafny's is Euclidean; the two agree here
    because every divisor tried is at least 2.
 */
module Single {

  /** The number of tasks the baseline creates. */
  const TASKS: nat := 150000

  /** The trial-division loop of `is_prime` from `num` on: false as soon as
      some candidate below `x` divides `x`. */
  function NoDivisorFrom(x: int, num: int): (r: bool)
    requires num >= 2
    ensures r <==> forall d :: num <= d < x ==> x % d != 0
    decreases x - num
  {
    if num >= x then true
    else if x % num == 0 then false
    else NoDivisorFrom(x, num + 1)
  }

  /** `is_prime`: false exactly when some `num` in `[2, x)` divides `x`. */
  function IsPrime(x: int): (r: bool)
    ensures r <==> forall d :: 2 <= d < x ==> x % d != 0
  {
    NoDivisorFrom(x, 2)
  }

  /** `x` is a product of two factors that are both at least 2. */
  ghost predicate Composite(x: int)
  {
    exists a, b :: 2 <= a && 2 <= b && a * b == x
  }

  /** A divisor strictly between 1 and `x` splits `x` into two factors of
      at least 2. */
  lemma DivisorSplits(x: int, d: int)
    requires 2 <= d < x && x % d == 0
    ensures Composite(x)
  {
    var b := x / d;
    assert x == d * b + x % d;
    assert d * b == x;
    assert 2 <= d && 2 <= b && d * b == x;
  }

  lemma {:induction false} MulAtLeast(a: int, k: int)
    requires a >= 1 && k >= 1
    ensures a * k >= a
    decreases k
  {
    if k > 1 {
      MulAtLeast(a, k - 1);
      assert a * k == a * (k - 1) + a;
    }
  }

  /** A factor of at least 2 of a product with another such factor is a
      divisor strictly below the product. */
  lemma FactorDivides(a: int, b: int)
    requires 2 <= a && 2 <= b
    ensures 2 <= a < a * b && (a * b) % a == 0
  {
    MulAtLeast(a, b - 1);
    assert a * b == a * (b - 1) + a;
    var q := (a * b) / a;
    var r := (a * b) % a;
    assert a * b == a * q + r && 0 <= r < a;
    assert a * (b - q) == r;
    if b - q >= 1 {
      MulAtLeast(a, b - q);
      assert false;
    } else if b - q <= -1 {
      MulAtLeast(a, q - b);
      assert false;
    }
  }

  /** From 2 on, `is_prime` is primality: it rejects exactly the products
      of two factors of at least 2. */
  lemma IsPrimeIsPrimality(x: int)
    requires x >= 2
    ensures IsPrime(x) <==> !Composite(x)
  {
    if !IsPrime(x) {
      var d :| 2 <= d < x && x % d == 0;
      DivisorSplits(x, d);
    }
    if Composite(x) {
      var a, b :| 2 <= a && 2 <= b && a * b == x;
      FactorDivides(a, b);
    }
  }

  /** The quirk of the baseline: 0, 1 and every negative number are
      reported prime, because the candidate range is empty. */
  lemma SmallInputsReportedPrime(x: int)
    requires x < 2
    ensures IsPrime(x) && !Composite(x)
  {
    if Composite(x) {
      var a, b :| 2 <= a && 2 <= b && a * b == x;
      assert false;
    }
  }

  /** Every even number above 2 is rejected: 2 is tried first. */
  lemma EvenIsNotPrime(x: int)
    requires x > 2 && x % 2 == 0
    ensures !IsPrime(x) && !NoDivisorFrom(x, 2)
  {
  }

  /** The baseline's drain loop over `n` tasks: `pending` starts as
      `0 .. n-1` and tasks are popped from its end, so they are processed
      from `n - 1` down to 0; it ends with `pending` empty and a result
      for exactly the tasks `0 .. n-1`, each mapped to `is_prime` of it. */
  method DrainPending(n: nat) returns (pending: seq<int>, resulting: map<int, bool>, order: seq<int>)
    ensures pending == []
    ensures forall t :: t in resulting <==> 0 <= t < n
    ensures forall t :: t in resulting ==> resulting[t] == IsPrime(t)
    ensures |order| == n && forall x :: 0 <= x < n ==> order[x] == n - 1 - x
  {
    pending := seq(n, j => j);
    resulting := map[];
    order := [];
    while |pending| > 0
      invariant |pending| + |order| == n
      invariant forall j :: 0 <= j < |pending| ==> pending[j] == j
      invariant forall t :: t in resulting <==> |pending| <= t < n
      invariant forall t :: t in resulting ==> resulting[t] == IsPrime(t)
      invariant forall x :: 0 <= x < |order| ==> order[x] == n - 1 - x
      decreases |pending|
    {
      var task := pending[|pending| - 1];
      pending := pending[..|pending| - 1];
      resulting := resulting[task := IsPrime(task)];
      order := order + [task];
    }
  }

  /** The baseline as shipped: the drain loop over `TASKS` tasks. */
  method Baseline() returns (resulting: map<int, bool>)
    ensures forall t :: t in resulting <==> 0 <= t < TASKS
    ensures forall t :: t in resulting ==> resulting[t] == IsPrime(t)
  {
    var pending, order;
    pending, resulting, order := DrainPending(TASKS);
  }
}

=== FILE: spread.dfy ===
/** `spread`: sending a list of messages to each of several workers.

    The argument is a Python dict from worker index to message list; it is
    modelled as its items in insertion order. The source validates the
    largest index with `max(keys) > len(pipes)`, which lets the index
    `len(pipes)` through to `send`, where the list access raises
    `IndexError` after the sends for earlier keys have gone out.
    `SpreadAsWritten` models that check; `Spread` checks `>=`, which is what
    the error message "Invalid worker idx" intends.
 */
module Spreading {
  import opened Messages
  import opened Liveness
  import opened ManagerState
  import opened Router

  /** The items of the dict passed to `spread`, in insertion order. */
  type Assignment = seq<(nat, seq<Msg>)>

  datatype SpreadError =
    | EmptyMapping            // `max` of no keys raises ValueError
    | InvalidWorker(worker: nat)

  datatype SpreadOutcome =
    | Sent(state: Manager, results: map<nat, bool>)
    | Rejected(error: SpreadError)
    | IndexFault(state: Manager, worker: nat)   // an uncaught IndexError from `send`

  /** The largest worker index of a non-empty assignment. */
  function MaxKey(obj: Assignment): (r: nat)
    requires |obj| > 0
    ensures exists k :: 0 <= k < |obj| && obj[k].0 == r
    ensures forall k :: 0 <= k < |obj| ==> obj[k].0 <= r
  {
    if |obj| == 1 then obj[0].0
    else
      var rest := MaxKey(obj[1..]);
      assert forall k :: 1 <= k < |obj| ==> obj[k] == obj[1..][k - 1];
      if obj[0].0 >= rest then obj[0].0 else rest
  }

  /** All messages the assignment holds for worker `w`, in order. */
  function MsgsFor(obj: Assignment, w: nat): seq<Msg>
  {
    if obj == [] then []
    else (if obj[0].0 == w then obj[0].1 else []) + MsgsFor(obj[1..], w)
  }

  /** The channel after successful writes of `ms`, in order. */
  function WrittenAll(ch: Channel, ms: seq<Msg>): Channel
  {
    ch.(outbound := ch.outbound + ms)
  }

  /** The inner loop of `spread`: the messages for one worker, sent in
      order; the flag is the result of the last send. */
  function SendList(st: Manager, w: nat, msgs: seq<Msg>, now: real): (r: (Manager, bool))
    requires w < |st.pipes|
    ensures SameRegistry(st, r.0)
    decreases |msgs|
  {
    if msgs == [] then (st, false)
    else
      var (s1, ok) := Send(st, w, msgs[0], now);
      if |msgs| == 1 then (s1, ok) else SendList(s1, w, msgs[1..], now)
  }

  /** The flag of a non-empty list of sends is the health of the channel. */
  lemma {:induction false} SendListFlag(st: Manager, w: nat, msgs: seq<Msg>, now: real)
    requires w < |st.pipes| && |msgs| > 0
    ensures SendList(st, w, msgs, now).1 <==> !st.pipes[w].broken
    decreases |msgs|
  {
    if |msgs| > 1 {
      var s1 := Send(st, w, msgs[0], now).0;
      SendListFlag(s1, w, msgs[1..], now);
    }
  }

  /** The channels after sending a list to `w`: `w` receives the whole list
      when it is healthy; no other channel changes. */
  lemma {:induction false} SendListPipes(st: Manager, w: nat, msgs: seq<Msg>, now: real)
    requires w < |st.pipes|
    ensures var r := SendList(st, w, msgs, now).0;
            forall j :: 0 <= j < |st.pipes| ==>
              r.pipes[j] == if j == w && !st.pipes[w].broken then WrittenAll(st.pipes[j], msgs) else st.pipes[j]
    decreases |msgs|
  {
    if msgs == [] {
      assert forall ch: Channel :: WrittenAll(ch, []) == ch by {
        forall ch: Channel ensures WrittenAll(ch, []) == ch {
          assert ch.outbound + [] == ch.outbound;
        }
      }
    } else {
      var s1 := Send(st, w, msgs[0], now).0;
      assert s1.pipes[w].broken == st.pipes[w].broken;
      if |msgs| > 1 {
        SendListPipes(s1, w, msgs[1..], now);
        var r := SendList(s1, w, msgs[1..], now).0;
        assert st.pipes[w].outbound + msgs == (st.pipes[w].outbound + [msgs[0]]) + msgs[1..];
        forall j | 0 <= j < |st.pipes|
          ensures r.pipes[j] == if j == w && !st.pipes[w].broken then WrittenAll(st.pipes[j], msgs) else st.pipes[j]
        {
          if j == w && !st.pipes[w].broken {
            assert s1.pipes[j] == Written(st.pipes[j], msgs[0]);
          } else {
            assert s1.pipes[j] == st.pipes[j];
          }
        }
      } else {
        assert st.pipes[w].outbound + msgs == st.pipes[w].outbound + [msgs[0]];
      }
    }
  }

  /** The markers after sending a list to `w`: reset for `w` when the
      channel is broken and some send was tried; every other marker, and
      `w`'s on a healthy channel, as it was. */
  lemma {:induction false} SendListMarkers(st: Manager, w: nat, msgs: seq<Msg>, now: real)
    requires w < |st.pipes|
    ensures var r := SendList(st, w, msgs, now).0;
            && (forall j: nat :: j != w ==> SameMarker(r.markers, st.markers, j))
            && (if |msgs| > 0 && st.pipes[w].broken then w in r.markers && r.markers[w] == RESET
                else SameMarker(r.markers, st.markers, w))
    decreases |msgs|
  {
    if |msgs| > 1 {
      var s1 := Send(st, w, msgs[0], now).0;
      assert s1.pipes[w].broken == st.pipes[w].broken;
      SendListMarkers(s1, w, msgs[1..], now);
      var r := SendList(s1, w, msgs[1..], now).0;
      forall j: nat | j != w
        ensures SameMarker(r.markers, st.markers, j)
      {
        assert SameMarker(s1.markers, st.markers, j);
        assert SameMarker(r.markers, s1.markers, j);
      }
      if !st.pipes[w].broken {
        assert SameMarker(s1.markers, st.markers, w);
      }
    }
  }

  /** Sending a list to `w`: a healthy channel receives the whole list and
      every send succeeds; a broken one receives nothing, every send fails
      and the marker ends reset. Nothing else changes. */
  lemma SendListEffect(st: Manager, w: nat, msgs: seq<Msg>, now: real)
    requires w < |st.pipes|
    ensures var r := SendList(st, w, msgs, now);
            && (|msgs| > 0 ==> (r.1 <==> !st.pipes[w].broken))
            && (forall j :: 0 <= j < |st.pipes| ==>
                  r.0.pipes[j] == if j == w && !st.pipes[w].broken then WrittenAll(st.pipes[j], msgs) else st.pipes[j])
            && (forall j: nat :: j != w ==> SameMarker(r.0.markers, st.markers, j))
            && (if |msgs| > 0 && st.pipes[w].broken then w in r.0.markers && r.0.markers[w] == RESET
                else SameMarker(r.0.markers, st.markers, w))
  {
    if |msgs| > 0 {
      SendListFlag(st, w, msgs, now);
    }
    SendListPipes(st, w, msgs, now);
    SendListMarkers(st, w, msgs, now);
  }

  /** Sending a list to `w` only appends disconnects of `w` to the log. */
  lemma {:induction false} SendListOnlyOwnHooks(st: Manager, w: nat, msgs: seq<Msg>, now: real)
    requires w < |st.pipes|
    ensures var r := SendList(st, w, msgs, now).0;
            && Extends(st.log, r.log)
            && (forall e :: e in r.log[|st.log|..] ==> e == Disconnect(w))
    decreases |msgs|
  {
    if |msgs| > 1 {
      var s1 := Send(st, w, msgs[0], now).0;
      SendListOnlyOwnHooks(s1, w, msgs[1..], now);
      var r := SendList(s1, w, msgs[1..], now).0;
      ExtendsTrans(st.log, s1.log, r.log);
    }
  }

  /** Sending a list over a healthy channel fires no hook. */
  lemma {:induction false} SendListHealthyQuiet(st: Manager, w: nat, msgs: seq<Msg>, now: real)
    requires w < |st.pipes| && !st.pipes[w].broken
    ensures SendList(st, w, msgs, now).0.log == st.log
    decreases |msgs|
  {
    if |msgs| > 1 {
      var s1 := Send(st, w, msgs[0], now).0;
      SendListHealthyQuiet(s1, w, msgs[1..], now);
    }
  }

  /** Sending a non-empty list over a broken channel whose worker is active
      fires the disconnect hook of `w`. */
  lemma SendListBrokenFires(st: Manager, w: nat, msgs: seq<Msg>, now: real)
    requires w < |st.pipes| && |msgs| > 0
    requires st.pipes[w].broken && IsActive(st.markers, st.ttl, now, w)
    ensures var r := SendList(st, w, msgs, now).0;
            |st.log| <= |r.log| && Disconnect(w) in r.log[|st.log|..]
  {
    var s1 := Send(st, w, msgs[0], now).0;
    assert Disconnect(w) in s1.log[|st.log|..];
    if |msgs| > 1 {
      SendListOnlyOwnHooks(s1, w, msgs[1..], now);
      var r := SendList(s1, w, msgs[1..], now).0;
      ExtendsTrans(st.log, s1.log, r.log);
      assert r.log[|st.log|..] == s1.log[|st.log|..] + r.log[|s1.log|..];
    }
  }

  /** How many hook calls sending a list to `w` makes: none on a healthy
      channel or for an empty list. On a broken channel the first send fires
      when the worker was active; every later send finds the marker at the
      sentinel and fires exactly when `now < ttl - 1`. */
  function DisconnectCount(st: Manager, w: nat, msgs: seq<Msg>, now: real): nat
    requires w < |st.pipes|
  {
    if |msgs| == 0 || !st.pipes[w].broken then 0
    else (if IsActive(st.markers, st.ttl, now, w) then 1 else 0)
         + (if RESET + st.ttl > now then |msgs| - 1 else 0)
  }

  /** Sending a list appends exactly `DisconnectCount` events to the log. */
  lemma {:induction false} SendListHookCount(st: Manager, w: nat, msgs: seq<Msg>, now: real)
    requires w < |st.pipes|
    ensures |SendList(st, w, msgs, now).0.log| == |st.log| + DisconnectCount(st, w, msgs, now)
    decreases |msgs|
  {
    if !st.pipes[w].broken {
      SendListHealthyQuiet(st, w, msgs, now);
    } else if |msgs| > 1 {
      var s1 := Send(st, w, msgs[0], now).0;
      assert |s1.log| == |st.log| + if IsActive(st.markers, st.ttl, now, w) then 1 else 0;
      SendListHookCount(s1, w, msgs[1..], now);
      assert IsActive(s1.markers, s1.ttl, now, w) <==> RESET + st.ttl > now;
    }
  }

  /** Sending a list to `w` appends only disconnects of `w`, as many as
      `DisconnectCount` says: none on a healthy channel, and on a broken one
      one for the first send when the worker was active plus one for each
      later send while `now < ttl - 1`. */
  lemma SendListHooks(st: Manager, w: nat, msgs: seq<Msg>, now: real)
    requires w < |st.pipes|
    ensures var r := SendList(st, w, msgs, now).0;
            && Extends(st.log, r.log)
            && (forall e :: e in r.log[|st.log|..] ==> e == Disconnect(w))
            && |r.log| == |st.log| + DisconnectCount(st, w, msgs, now)
            && (!st.pipes[w].broken ==> r.log == st.log)
            && (|msgs| > 0 && st.pipes[w].broken && IsActive(st.markers, st.ttl, now, w) ==>
                  Disconnect(w) in r.log[|st.log|..])
  {
    SendListOnlyOwnHooks(st, w, msgs, now);
    SendListHookCount(st, w, msgs, now);
    if !st.pipes[w].broken {
      SendListHealthyQuiet(st, w, msgs, now);
    }
    if |msgs| > 0 && st.pipes[w].broken && IsActive(st.markers, st.ttl, now, w) {
      SendListBrokenFires(st, w, msgs, now);
    }
  }

  /** The outer loop of `spread` over the items, for valid indices. A later
      item for the same index overrides the flag of an earlier one. */
  function SpreadItems(st: Manager, obj: Assignment, now: real): (r: (Manager, map<nat, bool>))
    requires forall k :: 0 <= k < |obj| ==> obj[k].0 < |st.pipes|
    ensures SameRegistry(st, r.0)
    decreases |obj|
  {
    if obj == [] then (st, map[])
    else
      var (w, msgs) := obj[0];
      var (s1, last) := SendList(st, w, msgs, now);
      var (s2, rest) := SpreadItems(s1, obj[1..], now);
      (s2, (if |msgs| > 0 then map[w := last] else map[]) + rest)
  }

  /** Writing two batches one after the other writes their concatenation. */
  lemma WrittenAllAppend(ch: Channel, a: seq<Msg>, b: seq<Msg>)
    ensures WrittenAll(WrittenAll(ch, a), b) == WrittenAll(ch, a + b)
  {
    assert (ch.outbound + a) + b == ch.outbound + (a + b);
  }

  /** The items of `spread` write to every healthy channel all the messages
      assigned to it, in item order, and nothing to a broken one. */
  lemma {:induction false} SpreadItemsPipes(st: Manager, obj: Assignment, now: real)
    requires forall k :: 0 <= k < |obj| ==> obj[k].0 < |st.pipes|
    ensures var r := SpreadItems(st, obj, now).0;
            forall j :: 0 <= j < |st.pipes| ==>
              r.pipes[j] == if st.pipes[j].broken then st.pipes[j] else WrittenAll(st.pipes[j], MsgsFor(obj, j))
    decreases |obj|
  {
    if obj == [] {
      forall j | 0 <= j < |st.pipes|
        ensures st.pipes[j] == WrittenAll(st.pipes[j], [])
      {
        assert st.pipes[j].outbound + [] == st.pipes[j].outbound;
      }
    } else {
      var (w, msgs) := obj[0];
      var s1 := SendList(st, w, msgs, now).0;
      SendListEffect(st, w, msgs, now);
      SpreadItemsPipes(s1, obj[1..], now);
      var r := SpreadItems(st, obj, now).0;
      assert r == SpreadItems(s1, obj[1..], now).0;
      forall j | 0 <= j < |st.pipes| && !st.pipes[j].broken
        ensures r.pipes[j] == WrittenAll(st.pipes[j], MsgsFor(obj, j))
      {
        var mine := if w == j then msgs else [];
        assert s1.pipes[j] == WrittenAll(st.pipes[j], mine) by {
          if w != j {
            assert st.pipes[j].outbound + [] == st.pipes[j].outbound;
          }
        }
        WrittenAllAppend(st.pipes[j], mine, MsgsFor(obj[1..], j));
      }
    }
  }

  /** `spread` reports a flag for exactly the workers it sent anything to,
      and the flag says whether their channel is healthy. */
  lemma {:induction false} SpreadItemsResults(st: Manager, obj: Assignment, now: real)
    requires forall k :: 0 <= k < |obj| ==> obj[k].0 < |st.pipes|
    ensures var r := SpreadItems(st, obj, now).1;
            && (forall j: nat :: j in r <==> |MsgsFor(obj, j)| > 0)
            && (forall j: nat :: j in r ==> j < |st.pipes| && (r[j] <==> !st.pipes[j].broken))
    decreases |obj|
  {
    if obj != [] {
      var (w, msgs) := obj[0];
      var s1 := SendList(st, w, msgs, now).0;
      SendListEffect(st, w, msgs, now);
      SpreadItemsResults(s1, obj[1..], now);
      forall j: nat | |MsgsFor(obj[1..], j)| > 0
        ensures j < |st.pipes|
      {
        MsgsForKeys(obj[1..], j);
      }
    }
  }

  /** A worker index with messages assigned occurs among the keys. */
  lemma {:induction false} MsgsForKeys(obj: Assignment, w: nat)
    requires |MsgsFor(obj, w)| > 0
    ensures exists k :: 0 <= k < |obj| && obj[k].0 == w
  {
    if obj[0].0 != w {
      MsgsForKeys(obj[1..], w);
      var k :| 0 <= k < |obj[1..]| && obj[1..][k].0 == w;
      assert obj[k + 1].0 == w;
    }
  }

  /** `spread` resets the marker of every broken channel it tried to send
      to, and of no other. */
  lemma {:induction false} SpreadItemsMarkers(st: Manager, obj: Assignment, now: real)
    requires forall k :: 0 <= k < |obj| ==> obj[k].0 < |st.pipes|
    ensures var r := SpreadItems(st, obj, now).0;
            forall j: nat ::
              if j < |st.pipes| && st.pipes[j].broken && |MsgsFor(obj, j)| > 0
              then j in r.markers && r.markers[j] == RESET
              else SameMarker(r.markers, st.markers, j)
    decreases |obj|
  {
    if obj != [] {
      var (w, msgs) := obj[0];
      var s1 := SendList(st, w, msgs, now).0;
      SendListEffect(st, w, msgs, now);
      SpreadItemsMarkers(s1, obj[1..], now);
      var r := SpreadItems(st, obj, now).0;
      assert r == SpreadItems(s1, obj[1..], now).0;
      forall j: nat
        ensures if j < |st.pipes| && st.pipes[j].broken && |MsgsFor(obj, j)| > 0
                then j in r.markers && r.markers[j] == RESET
                else SameMarker(r.markers, st.markers, j)
      {
        var mine := if w == j then msgs else [];
        assert MsgsFor(obj, j) == mine + MsgsFor(obj[1..], j);
        if j < |st.pipes| {
          assert s1.pipes[j].broken == st.pipes[j].broken;
        }
        if !(j < |st.pipes| && st.pipes[j].broken && |MsgsFor(obj, j)| > 0) {
          assert !(j < |st.pipes| && s1.pipes[j].broken && |MsgsFor(obj[1..], j)| > 0);
          assert SameMarker(r.markers, s1.markers, j);
          assert SameMarker(s1.markers, st.markers, j) by {
            if j == w {
              assert !(|msgs| > 0 && st.pipes[w].broken);
            }
          }
        }
      }
    }
  }

  /** `spread` fires disconnect hooks only for broken channels it tried to
      send to; each such channel whose worker was active fires at least once. */
  lemma {:induction false} SpreadItemsHooks(st: Manager, obj: Assignment, now: real)
    requires forall k :: 0 <= k < |obj| ==> obj[k].0 < |st.pipes|
    ensures var r := SpreadItems(st, obj, now).0;
            && Extends(st.log, r.log)
            && (forall e :: e in r.log[|st.log|..] ==>
                  e.Disconnect? && e.worker < |st.pipes| && st.pipes[e.worker].broken
                  && |MsgsFor(obj, e.worker)| > 0)
    decreases |obj|
  {
    if obj != [] {
      var (w, msgs) := obj[0];
      var s1 := SendList(st, w, msgs, now).0;
      SendListEffect(st, w, msgs, now);
      SendListHooks(st, w, msgs, now);
      SpreadItemsHooks(s1, obj[1..], now);
      var r := SpreadItems(s1, obj[1..], now).0;
      ExtendsTrans(st.log, s1.log, r.log);
      assert r.log[|st.log|..] == s1.log[|st.log|..] + r.log[|s1.log|..];
      forall e | e in s1.log[|st.log|..]
        ensures |MsgsFor(obj, w)| > 0 && st.pipes[w].broken
      {
        assert |msgs| > 0;
      }
    }
  }

  /** `spread` with the corrected bound: an empty mapping and any index
      outside the registry are rejected before anything is sent. */
  function Spread(st: Manager, obj: Assignment, now: real): (r: SpreadOutcome)
    ensures !r.IndexFault?
    ensures r.Rejected? <==> |obj| == 0 || exists k :: 0 <= k < |obj| && obj[k].0 >= |st.pipes|
    ensures r == Rejected(EmptyMapping) <==> |obj| == 0
    ensures r.Rejected? && |obj| > 0 ==> r.error.InvalidWorker? && r.error.worker >= |st.pipes|
    ensures r.Sent? ==> SameRegistry(st, r.state)
  {
    if |obj| == 0 then Rejected(EmptyMapping)
    else if MaxKey(obj) >= |st.pipes| then Rejected(InvalidWorker(MaxKey(obj)))
    else
      var (s, results) := SpreadItems(st, obj, now);
      Sent(s, results)
  }

  /** What an accepted `spread` did: every healthy target received all its
      messages in order, every target's flag says whether its channel is
      healthy, broken targets were reset, and only they can fire the hook. */
  lemma SpreadDelivers(st: Manager, obj: Assignment, now: real)
    requires Spread(st, obj, now).Sent?
    ensures var r := Spread(st, obj, now);
            && (forall j :: 0 <= j < |st.pipes| ==>
                  r.state.pipes[j] == if st.pipes[j].broken then st.pipes[j] else WrittenAll(st.pipes[j], MsgsFor(obj, j)))
            && (forall j: nat :: j in r.results <==> |MsgsFor(obj, j)| > 0)
            && (forall j: nat :: j in r.results ==> j < |st.pipes| && (r.results[j] <==> !st.pipes[j].broken))
            && (forall j: nat ::
                  if j < |st.pipes| && st.pipes[j].broken && |MsgsFor(obj, j)| > 0
                  then j in r.state.markers && r.state.markers[j] == RESET
                  else SameMarker(r.state.markers, st.markers, j))
            && Extends(st.log, r.state.log)
            && (forall e :: e in r.state.log[|st.log|..] ==>
                  e.Disconnect? && e.worker < |st.pipes| && st.pipes[e.worker].broken)
  {
    SpreadItemsPipes(st, obj, now);
    SpreadItemsResults(st, obj, now);
    SpreadItemsMarkers(st, obj, now);
    SpreadItemsHooks(st, obj, now);
  }

  /** The outer loop of `spread` as written: an item for an index outside
      the registry raises `IndexError` at its first send, after the earlier
      items' sends went out; an item with an empty list sends nothing. */
  function SpreadItemsAsWritten(st: Manager, obj: Assignment, now: real): (r: SpreadOutcome)
    ensures !r.Rejected? && SameRegistry(st, r.state)
    decreases |obj|
  {
    if obj == [] then Sent(st, map[])
    else
      var (w, msgs) := obj[0];
      if w >= |st.pipes| then
        if |msgs| > 0 then IndexFault(st, w) else SpreadItemsAsWritten(st, obj[1..], now)
      else
        var (s1, last) := SendList(st, w, msgs, now);
        var tail := SpreadItemsAsWritten(s1, obj[1..], now);
        if tail.Sent? then Sent(tail.state, (if |msgs| > 0 then map[w := last] else map[]) + tail.results)
        else tail
  }

  /** `spread` as written, with the check `max(keys) > len(pipes)`. */
  function SpreadAsWritten(st: Manager, obj: Assignment, now: real): (r: SpreadOutcome)
    ensures r == Rejected(EmptyMapping) <==> |obj| == 0
    ensures r.Rejected? <==> |obj| == 0 || exists k :: 0 <= k < |obj| && obj[k].0 > |st.pipes|
  {
    if |obj| == 0 then Rejected(EmptyMapping)
    else if MaxKey(obj) > |st.pipes| then Rejected(InvalidWorker(MaxKey(obj)))
    else SpreadItemsAsWritten(st, obj, now)
  }

  /** The off-by-one: the index `len(pipes)` passes the check as written and
      faults in `send`, where the corrected check rejects it up front. */
  lemma SpreadOffByOne(st: Manager, m: Msg, now: real)
    ensures SpreadAsWritten(st, [(|st.pipes|, [m])], now) == IndexFault(st, |st.pipes|)
    ensures Spread(st, [(|st.pipes|, [m])], now) == Rejected(InvalidWorker(|st.pipes|))
  {
    assert MaxKey([(|st.pipes|, [m])]) == |st.pipes|;
  }

  /** The fault as written comes after the sends of the earlier items: a
      message for worker 0 has been written when the index `len(pipes)`
      faults, so the call is not free of side effects. */
  lemma SpreadAsWrittenPartialSend(st: Manager, m: Msg, now: real)
    requires |st.pipes| > 0 && !st.pipes[0].broken
    ensures var r := SpreadAsWritten(st, [(0, [m]), (|st.pipes|, [m])], now);
            && r.IndexFault?
            && r.state.pipes[0].outbound == st.pipes[0].outbound + [m]
  {
    var obj: Assignment := [(0, [m]), (|st.pipes|, [m])];
    assert MaxKey(obj) == |st.pipes|;
    var s1 := SendList(st, 0, [m], now).0;
    assert SpreadItemsAsWritten(st, obj, now) == SpreadItemsAsWritten(s1, obj[1..], now);
  }

  /** Where the index `len(pipes)` does not occur, the source's check and the
      corrected one agree. */
  lemma {:induction false} SpreadAsWrittenAgrees(st: Manager, obj: Assignment, now: real)
    requires forall k :: 0 <= k < |obj| ==> obj[k].0 != |st.pipes|
    ensures SpreadAsWritten(st, obj, now) == Spread(st, obj, now)
  {
    if |obj| > 0 && MaxKey(obj) < |st.pipes| {
      ItemsAsWrittenAgree(st, obj, now);
    }
  }

  /** For valid indices the two outer loops coincide. */
  lemma {:induction false} ItemsAsWrittenAgree(st: Manager, obj: Assignment, now: real)
    requires forall k :: 0 <= k < |obj| ==> obj[k].0 < |st.pipes|
    ensures var (s, results) := SpreadItems(st, obj, now);
            SpreadItemsAsWritten(st, obj, now) == Sent(s, results)
    decreases |obj|
  {
    if obj != [] {
      var (w, msgs) := obj[0];
      var s1 := SendList(st, w, msgs, now).0;
      ItemsAsWrittenAgree(s1, obj[1..], now);
    }
  }
}

=== FILE: system.dfy ===
/** Both ends of one pipe together: what the worker writes is what the
    manager's `collect` later drains, and what the manager writes is what
    the worker's `run_once` reads, in order.
 */
module System {
  import opened Messages
  import opened ManagerState
  import opened ManagerLoop
  import opened WorkerRuntime

  /** The worker's heartbeat replies never reach the manager's handler:
      appending `:pong`s to what a worker wrote leaves the manager's
      payloads unchanged. */
  lemma PongsAreSilent(out: seq<Msg>, k: nat)
    ensures Payloads(out + Pongs(k)) == Payloads(out)
  {
    KeepAppend(out, Pongs(k), ACKS);
    KeepOnlyDropped(Pongs(k), ACKS);
    assert Payloads(out) + [] == Payloads(out);
  }

  /** A message a worker sends reaches the manager's handler, after
      everything it sent before, exactly when it is not one of the two
      acknowledgements. */
  lemma WorkerSendReachesHandler(w: Worker, m: Msg)
    ensures m !in ACKS ==> Payloads(Send(w, m).outbox) == Payloads(w.outbox) + [m]
    ensures m in ACKS ==> Payloads(Send(w, m).outbox) == Payloads(w.outbox)
  {
    KeepAppend(w.outbox, [m], ACKS);
    assert Keep([m], ACKS) == (if m in ACKS then [] else [m]);
  }

  /** A worker's whole life when the manager only sends control messages
      and user messages ahead of a `:stop`: it registers, answers every
      `:ping` with exactly one `:pong`, and none of what it wrote reaches
      the manager's handler. */
  method RunConnected(inbox: seq<Msg>) returns (w: Worker)
    requires STOP in inbox
    ensures w.done
    ensures var k := IndexOf(inbox, STOP);
            && w.outbox == [REGISTER] + Pongs(Count(inbox[..k], PING))
            && Payloads(w.outbox) == []
            && HandledIn(w.log) == Keep(inbox[..k], {PING})
  {
    var w0 := Connect(inbox);
    w := RunWorker(w0);
    assert w.log[|w0.log|..] == w.log;
    PongsAreSilent([REGISTER], Count(inbox[..IndexOf(inbox, STOP)], PING));
  }

  /** `stop` followed by the worker's `run_worker` on a healthy pipe: a
      worker that has read the first `read` messages the manager wrote and
      is not done terminates; when no earlier `:stop` was pending it reads
      every message the manager wrote, the `:stop` last, and hands every
      message other than `:ping` to `handle_msg` in order. */
  method ShutDown(st: Manager, now: real, j: nat, read: nat, w0: Worker) returns (r: Manager, w: Worker)
    requires j < |st.pipes| && !st.pipes[j].broken
    requires read <= |st.pipes[j].outbound|
    requires w0.inbox == st.pipes[j].outbound[read..] && !w0.done
    ensures r == Stop(st, now)
    ensures w.done
    ensures STOP !in w0.inbox ==>
              && w.inbox == []
              && |w0.log| < |w.log| && w.log[..|w0.log|] == w0.log
              && Ticks(w.log[|w0.log|..]) == |w0.inbox| + 1
              && HandledIn(w.log[|w0.log|..]) == Keep(w0.inbox, {PING})
  {
    r := Stop(st, now);
    StopReachesHealthyWorkers(st, now);
    var pending := r.pipes[j].outbound[read..];
    assert pending == w0.inbox + [STOP];
    w := RunWorker(w0.(inbox := pending));
    if STOP !in w0.inbox {
      assert IndexOf(pending, STOP) == |w0.inbox|;
      assert pending[..|w0.inbox|] == w0.inbox;
    }
  }
}

=== FILE: worker.dfy ===
/** The worker side of the protocol: a worker process reads its end of the
    pipe one message per tick and answers the manager's control opcodes.

    The worker's view of its pipe is the queue of messages the manager wrote
    and the worker has not read yet (`inbox`) and everything the worker wrote
    (`outbox`). The user hooks `loop` and `handle_msg` are recorded as
    events. A broken pipe on the worker side is not modelled.
 */
module WorkerRuntime {
  import opened Messages

  datatype WorkerEvent = Tick | Handled(msg: Msg)

  datatype Worker = Worker(inbox: seq<Msg>, outbox: seq<Msg>, done: bool, log: seq<WorkerEvent>)

  /** Construction: the worker announces itself with one `:register` and is
      not done. The announcement is an acknowledgement the manager's
      `collect` consumes: it never reaches the manager's handler. */
  function Connect(inbox: seq<Msg>): (w: Worker)
    ensures w.inbox == inbox && w.outbox == [REGISTER]
    ensures !w.done && w.log == []
    ensures Payloads(w.outbox) == []
  {
    Worker(inbox, [REGISTER], false, [])
  }

  /** One `run_once`: the `loop` hook always runs first; then at most one
      message is consumed. `:stop` only sets done, `:ping` only answers
      `:pong`, anything else only goes to `handle_msg`. */
  function RunOnce(w: Worker): (r: Worker)
    ensures w.inbox == [] ==> r == w.(log := w.log + [Tick])
    ensures w.inbox != [] ==> r.inbox == w.inbox[1..]
    ensures r.done <==> w.done || (w.inbox != [] && w.inbox[0] == STOP)
    ensures r.outbox == w.outbox + (if w.inbox != [] && w.inbox[0] == PING then [PONG] else [])
    ensures r.log == w.log + [Tick] + (if w.inbox != [] && w.inbox[0] != STOP && w.inbox[0] != PING
                                        then [Handled(w.inbox[0])] else [])
  {
    var ticked := w.(log := w.log + [Tick]);
    if w.inbox == [] then ticked
    else
      var m := w.inbox[0];
      var rest := ticked.(inbox := w.inbox[1..]);
      if m == STOP then rest.(done := true)
      else if m == PING then rest.(outbox := w.outbox + [PONG])
      else rest.(log := rest.log + [Handled(m)])
  }

  /** `send`: the message is appended to what the worker wrote; nothing
      else changes. */
  function Send(w: Worker, m: Msg): (r: Worker)
    ensures r.outbox == w.outbox + [m]
    ensures r.inbox == w.inbox && r.done == w.done && r.log == w.log
  {
    w.(outbox := w.outbox + [m])
  }

  /** `k` copies of `:pong`. */
  function Pongs(k: nat): (r: seq<Msg>)
    ensures |r| == k
    ensures forall x :: 0 <= x < k ==> r[x] == PONG
  {
    seq(k, _ => PONG)
  }

  lemma PongsAppend(a: nat, b: nat)
    ensures Pongs(a) + Pongs(b) == Pongs(a + b)
  {
    assert forall x :: 0 <= x < a + b ==> (Pongs(a) + Pongs(b))[x] == PONG;
  }

  /** The number of `loop` calls in a stretch of the worker's log. */
  function Ticks(evs: seq<WorkerEvent>): nat
  {
    if evs == [] then 0 else (if evs[0].Tick? then 1 else 0) + Ticks(evs[1..])
  }

  /** The messages handed to `handle_msg` in a stretch of the log, in order. */
  function HandledIn(evs: seq<WorkerEvent>): seq<Msg>
  {
    if evs == [] then [] else (if evs[0].Handled? then [evs[0].msg] else []) + HandledIn(evs[1..])
  }

  lemma {:induction false} LogAppend(a: seq<WorkerEvent>, b: seq<WorkerEvent>)
    ensures Ticks(a + b) == Ticks(a) + Ticks(b)
    ensures HandledIn(a + b) == HandledIn(a) + HandledIn(b)
  {
    if a == [] {
      assert a + b == b;
    } else {
      assert (a + b)[1..] == a[1..] + b;
      LogAppend(a[1..], b);
    }
  }

  lemma {:induction false} CountAppend(a: seq<Msg>, b: seq<Msg>, m: Msg)
    ensures Count(a + b, m) == Count(a, m) + Count(b, m)
  {
    if a == [] {
      assert a + b == b;
    } else {
      assert (a + b)[1..] == a[1..] + b;
      CountAppend(a[1..], b, m);
    }
  }

  /** `ticks` iterations of `run_once`, whatever the done flag says. */
  function RunFor(w: Worker, ticks: nat): Worker
    decreases ticks
  {
    if ticks == 0 then w else RunFor(RunOnce(w), ticks - 1)
  }

  /** Done is monotone: once set, no number of further ticks clears it. */
  lemma {:induction false} DoneIsStable(w: Worker, ticks: nat)
    requires w.done
    ensures RunFor(w, ticks).done
    decreases ticks
  {
    if ticks > 0 {
      DoneIsStable(RunOnce(w), ticks - 1);
    }
  }

  /** `w` has read the first `i` messages of `w0.inbox`, where `k` is the
      position of the first `:stop`, and only appended to the log. */
  predicate Reading(w0: Worker, w: Worker, k: nat, i: nat)
  {
    && k < |w0.inbox| && i <= k + 1
    && (w.done <==> i == k + 1)
    && w.inbox == w0.inbox[i..]
    && |w0.log| <= |w.log| && w.log[..|w0.log|] == w0.log
  }

  /** Since `w0`, `w` has run `loop` `ticks` times and answered and handled
      exactly the messages `read`. */
  predicate Effects(w0: Worker, w: Worker, read: seq<Msg>, ticks: nat)
    requires |w0.log| <= |w.log|
  {
    && w.outbox == w0.outbox + Pongs(Count(read, PING))
    && HandledIn(w.log[|w0.log|..]) == Keep(read, {PING})
    && Ticks(w.log[|w0.log|..]) == ticks
  }

  /** The loop invariant of `run_worker`. */
  predicate Progress(w0: Worker, w: Worker, k: nat, i: nat)
  {
    && Reading(w0, w, k, i)
    && Effects(w0, w, w0.inbox[..if i <= k then i else k], i)
    && (w.done ==> |w0.log| < |w.log| && w.log[|w.log| - 1] == Tick)
  }

  /** What one tick appends to the log, seen through the projections. */
  lemma TickLog(w0: Worker, w: Worker)
    requires |w0.log| <= |w.log| && w.log[..|w0.log|] == w0.log
    ensures var next := RunOnce(w);
            var added := next.log[|w.log|..];
            && next.log[..|w0.log|] == w0.log
            && Ticks(next.log[|w0.log|..]) == Ticks(w.log[|w0.log|..]) + Ticks(added)
            && HandledIn(next.log[|w0.log|..]) == HandledIn(w.log[|w0.log|..]) + HandledIn(added)
  {
    var next := RunOnce(w);
    var added := next.log[|w.log|..];
    assert next.log == w.log + added;
    assert next.log[|w0.log|..] == w.log[|w0.log|..] + added;
    LogAppend(w.log[|w0.log|..], added);
  }

  /** A tick that reads a message other than `:stop` runs `loop` once,
      hands the message to `handle_msg` unless it is `:ping`, and answers
      `:pong` exactly when it is `:ping`. */
  lemma TickReadsOne(w: Worker)
    requires w.inbox != [] && w.inbox[0] != STOP
    ensures var added := RunOnce(w).log[|w.log|..];
            var m := w.inbox[0];
            && Ticks(added) == 1
            && HandledIn(added) == Keep([m], {PING})
            && RunOnce(w).outbox == w.outbox + Pongs(Count([m], PING))
  {
    var m := w.inbox[0];
    var added := RunOnce(w).log[|w.log|..];
    assert Keep([m], {PING}) == if m == PING then [] else [m];
    assert Count([m], PING) == if m == PING then 1 else 0;
    if m == PING {
      assert added == [Tick];
      assert HandledIn(added) == HandledIn(added[1..]) == [];
    } else {
      assert added == [Tick, Handled(m)];
      assert added[1..] == [Handled(m)];
      assert added[1..][1..] == [];
      assert HandledIn(added[1..]) == [m];
      assert Ticks(added[1..]) == 0;
    }
  }

  /** The `:pong`s of one more tick that reads a message other than `:stop`. */
  lemma OutboxStep(w0: Worker, w: Worker, read: seq<Msg>)
    requires w.outbox == w0.outbox + Pongs(Count(read, PING))
    requires w.inbox != [] && w.inbox[0] != STOP
    ensures RunOnce(w).outbox == w0.outbox + Pongs(Count(read + [w.inbox[0]], PING))
  {
    var m := w.inbox[0];
    var a := Count(read, PING);
    var b := Count([m], PING);
    TickReadsOne(w);
    assert RunOnce(w).outbox == w0.outbox + Pongs(a) + Pongs(b);
    PongsAppend(a, b);
    CountAppend(read, [m], PING);
    assert Count(read + [m], PING) == a + b;
  }

  /** The log of one more tick that reads a message other than `:stop`. */
  lemma LogStep(w0: Worker, w: Worker, read: seq<Msg>, ticks: nat)
    requires |w0.log| <= |w.log| && w.log[..|w0.log|] == w0.log
    requires HandledIn(w.log[|w0.log|..]) == Keep(read, {PING})
    requires Ticks(w.log[|w0.log|..]) == ticks
    requires w.inbox != [] && w.inbox[0] != STOP
    ensures |w0.log| <= |RunOnce(w).log|
    ensures HandledIn(RunOnce(w).log[|w0.log|..]) == Keep(read + [w.inbox[0]], {PING})
    ensures Ticks(RunOnce(w).log[|w0.log|..]) == ticks + 1
  {
    var m := w.inbox[0];
    TickLog(w0, w);
    TickReadsOne(w);
    KeepAppend(read, [m], {PING});
  }

  /** The effects of one more tick that reads a message other than `:stop`. */
  lemma EffectsStep(w0: Worker, w: Worker, read: seq<Msg>, ticks: nat)
    requires |w0.log| <= |w.log| && w.log[..|w0.log|] == w0.log
    requires Effects(w0, w, read, ticks)
    requires w.inbox != [] && w.inbox[0] != STOP
    ensures |w0.log| <= |RunOnce(w).log|
    ensures Effects(w0, RunOnce(w), read + [w.inbox[0]], ticks + 1)
  {
    OutboxStep(w0, w, read);
    LogStep(w0, w, read, ticks);
  }

  /** One tick of `run_worker` before the first `:stop` has been read. */
  lemma StepBeforeStop(w0: Worker, w: Worker, k: nat, i: nat)
    requires STOP in w0.inbox && k == IndexOf(w0.inbox, STOP)
    requires Progress(w0, w, k, i) && i < k
    ensures Progress(w0, RunOnce(w), k, i + 1)
  {
    var m := w0.inbox[i];
    var next := RunOnce(w);
    assert w.inbox[0] == m;
    assert m != STOP by {
      assert m == w0.inbox[..k][i];
    }
    assert Reading(w0, next, k, i + 1) by {
      TickLog(w0, w);
      assert w0.inbox[i + 1..] == w0.inbox[i..][1..];
    }
    assert Effects(w0, next, w0.inbox[..i + 1], i + 1) by {
      assert w0.inbox[..i + 1] == w0.inbox[..i] + [m];
      EffectsStep(w0, w, w0.inbox[..i], i);
    }
  }

  /** The tick that reads the first `:stop`. */
  lemma StepAtStop(w0: Worker, w: Worker, k: nat)
    requires STOP in w0.inbox && k == IndexOf(w0.inbox, STOP)
    requires Progress(w0, w, k, k)
    ensures Progress(w0, RunOnce(w), k, k + 1)
  {
    assert w.inbox[0] == STOP;
    TickLog(w0, w);
  }

  /** The invariant of `run_worker` holds before the first tick. */
  lemma ProgressStart(w0: Worker, k: nat)
    requires STOP in w0.inbox && k == IndexOf(w0.inbox, STOP) && !w0.done
    ensures Progress(w0, w0, k, 0)
  {
    assert w0.inbox[0..] == w0.inbox;
    assert w0.log[..|w0.log|] == w0.log;
    assert w0.log[|w0.log|..] == [];
    assert w0.inbox[..0] == [];
    assert w0.outbox + Pongs(0) == w0.outbox;
  }

  /** One iteration of `run_worker`'s loop keeps its invariant. */
  lemma ProgressStep(w0: Worker, w: Worker, k: nat, i: nat)
    requires STOP in w0.inbox && k == IndexOf(w0.inbox, STOP)
    requires Progress(w0, w, k, i) && !w.done
    ensures i <= k
    ensures Progress(w0, RunOnce(w), k, i + 1)
  {
    if i < k {
      StepBeforeStop(w0, w, k, i);
    } else {
      StepAtStop(w0, w, k);
    }
  }

  /** The invariant of `run_worker` once the first `:stop` has been read
      gives its outcome. */
  lemma ProgressDone(w0: Worker, w: Worker, k: nat)
    requires STOP in w0.inbox && k == IndexOf(w0.inbox, STOP)
    requires Progress(w0, w, k, k + 1)
    ensures w.done
    ensures var k := IndexOf(w0.inbox, STOP);
            && w.inbox == w0.inbox[k + 1..]
            && w.outbox == w0.outbox + Pongs(Count(w0.inbox[..k], PING))
            && |w0.log| < |w.log| && w.log[..|w0.log|] == w0.log
            && w.log[|w.log| - 1] == Tick
            && Ticks(w.log[|w0.log|..]) == k + 1
            && HandledIn(w.log[|w0.log|..]) == Keep(w0.inbox[..k], {PING})
  {
  }

  /** `run_worker`: ticks until done. A worker that is not done yet and has
      a `:stop` waiting stops exactly at the first `:stop`: it has read
      everything before it and nothing after it, answered each `:ping`
      before it with one `:pong`, handed every other message before it to
      `handle_msg` in order, and run `loop` once per message read. */
  method RunWorker(w0: Worker) returns (w: Worker)
    requires w0.done || STOP in w0.inbox
    ensures w.done
    ensures w0.done ==> w == w0
    ensures !w0.done ==>
              var k := IndexOf(w0.inbox, STOP);
              && w.inbox == w0.inbox[k + 1..]
              && w.outbox == w0.outbox + Pongs(Count(w0.inbox[..k], PING))
              && |w0.log| < |w.log| && w.log[..|w0.log|] == w0.log
              && w.log[|w.log| - 1] == Tick
              && Ticks(w.log[|w0.log|..]) == k + 1
              && HandledIn(w.log[|w0.log|..]) == Keep(w0.inbox[..k], {PING})
  {
    w := w0;
    if !w.done {
      var k := IndexOf(w0.inbox, STOP);
      var i := 0;
      ProgressStart(w0, k);
      while !w.done
        invariant Progress(w0, w, k, i)
        decreases k + 1 - i
      {
        ProgressStep(w0, w, k, i);
        w := RunOnce(w);
        i := i + 1;
      }
      ProgressDone(w0, w, k);
    }
  }
}
